=== FILE: README.md ===
# dry-mutations, modelled in Dafny

dry-mutations lets a `Mutations::Command` declare its inputs with a
dry-validation schema. This project models the part of the gem that does not
depend on dry-validation's or Mutations' internals, and proves properties of it:

- the `Dry::Mutations::Utils` helpers:
  - the `FALSEY`/`TRUTHY` expressions and the `Falsey?`/`Truthy?` tests;
  - the plain-hash key stringifier `Hash`;
  - the two predicate-name tables `DRY_TO_MUTATIONS` and `MUTATIONS_TO_DRY`;
  - the `Guards` translator;
  - the `Type` hint.
- what `Dry::Mutations::Extensions::Command` adds to a command:
  - the input fragment merge in `initialize`;
  - the rule that the custom `validate` runs only when there are no errors yet;
  - `add_error` along a dot-separated key path;
  - the rescue around `execute`;
  - `call`.

Modules:

- `Ruby` (`ruby.dfy`): the Ruby values and hash keys the code handles, plus
  the core-library behaviour it relies on: `to_s`, `inspect`, truthiness,
  `Array#to_h` and `String#split`. Hashes received as arguments are ordered
  pair lists, because their order decides which duplicate key wins. Hashes
  produced are `map`s, because Ruby hash equality ignores order.
- `Utils` (`utils.dfy`): `lib/dry/mutations/utils.rb`. The regular
  expressions are modelled from their source text. The source
  `\A#{Regexp.union(words).source}\z` is split at `|` into alternatives, and
  each alternative keeps the anchors written inside it.
- `Errors` (`errors.dfy`): the nested error hash, with atoms at its leaves,
  and the insertion `add_error` performs. `Mutations::ErrorHash` (in the
  Mutations gem, not part of this model) is a hash with indifferent access,
  so the tree is keyed by name: `:a` and `"a"` are the same key.
- `Command` (`command.dfy`): `lib/dry/mutations/extensions/command.rb`. The
  schema, the error compiler and the command's own `validate` and `execute`
  are function-valued fields of a `Hooks` record. The model therefore holds
  for every schema and every command body.

Three behaviours of the code worth knowing:

- The `ArgumentError` for a fragment that is not a hash shows all the
  arguments, as `args.inspect` (`Command.NotHashes`).
- The comment at `utils.rb:75-76` suggests the stripping constructor only
  when `strip:` is given. The code also builds it when `strip:` is absent:
  `Type('string')` gives the stripping constructor, and only an explicitly
  falsey `strip:` gives `:str?`.
- `MUTATIONS_TO_DRY` has six entries. `inclusion?` and `included_in?` both map
  to `in`, and inverting the table keeps the later one, `included_in?`.

## Model

| member | source | states |
|---|---|---|
| Utils.AlternativesOfSource | lib/dry/mutations/utils.rb:4-5 | the source `\A`, the words joined by vertical bars, then `\z`, reads as one alternative per word, in order; `\A` anchors only the first word and `\z` only the last |
| Utils.AnchoredMatch | lib/dry/mutations/utils.rb:4-5 | such an expression matches a string iff its down-cased text starts with the first word, contains a middle word, or ends with the last word |
| Utils.FalseyShape | lib/dry/mutations/utils.rb:4 | `FALSEY` matches iff the down-cased text starts with `0`, contains `skip`, `false`, `falsey` or `no`, or ends with `n` |
| Utils.TruthyShape | lib/dry/mutations/utils.rb:5 | `TRUTHY` matches iff the down-cased text starts with `1`, contains `use`, `true`, `truthy` or `yes`, or ends with `y` |
| Utils.ListedWordsAccepted | lib/dry/mutations/utils.rb:4-13 | each listed word, in any letter case, is explicitly falsey (resp. truthy) |
| Utils.ImplicitIsComplement | lib/dry/mutations/utils.rb:7-13 | `Falsey?(x, explicit: false)` holds iff `Truthy?(x)` does not, and `Truthy?(x, explicit: false)` holds iff `Falsey?(x)` does not |
| Utils.NilIsNeither | lib/dry/mutations/utils.rb:7-13 | `nil` is neither explicitly falsey nor explicitly truthy, so in the non-explicit mode it is both |
| Utils.FalseyReadsAsTruthy | lib/dry/mutations/utils.rb:4-13 | as written, `"falsey"` is explicitly truthy as well as falsey, and `"on"` is explicitly falsey (see Findings) |
| Utils.IntendedIsConsistent | lib/dry/mutations/utils.rb:4-13 | with the alternation grouped, no input is both explicitly truthy and explicitly falsey, explicit implies non-explicit, and every grouped answer is one the shipped expressions also give |
| Utils.StripReadingsAgree | lib/dry/mutations/utils.rb:72 | for `nil`, `true` and `false` the shipped and the grouped `Falsey?` agree: only `false` is falsey |
| Utils.Hash | lib/dry/mutations/utils.rb:37-38 | every output key is the `to_s` of an input key, every input key's `to_s` is present, and of keys with the same string form the last one's value is kept |
| Utils.HashCollision | lib/dry/mutations/utils.rb:38 | `{a: x, "a" => y}` becomes `{"a" => y}` |
| Utils.DryTableIsHashLiteral | lib/dry/mutations/utils.rb:42-50 | the table is the hash of its seven entries in order; no key repeats |
| Utils.InvertRoundTrip | lib/dry/mutations/utils.rb:51 | for `Hash#invert` of distinct keys: each value becomes a key, going there and back returns the value, and the inverse returns a value's own key iff no later key has the same value |
| Utils.MutationsTableIsInvert | lib/dry/mutations/utils.rb:51 | `MUTATIONS_TO_DRY` is the inverse of `DRY_TO_MUTATIONS` |
| Utils.MutationsRoundTrip | lib/dry/mutations/utils.rb:42-51 | Mutations name to dry name and back is the identity |
| Utils.DryRoundTrip | lib/dry/mutations/utils.rb:42-51 | dry name to Mutations name and back is the identity on every dry name except the deprecated `inclusion?` |
| Utils.Guards | lib/dry/mutations/utils.rb:54-67 | empty parameters or a truthy `empty:` give `{}`; otherwise the call fails iff no name belongs to either table; on success the result is the translation through the dry table if any name is dry's, else through the inverted table |
| Utils.Translate | lib/dry/mutations/utils.rb:64-66 | the result's keys are exactly the targets of the names the table knows (unknown names are dropped), and each target holds the parameter of the last name sent to it |
| Utils.TranslateInjective | lib/dry/mutations/utils.rb:64-66 | when known names have distinct targets, every known name's parameter arrives under its target |
| Utils.GuardsFromMutations | lib/dry/mutations/utils.rb:54-66 | Mutations-named guards become dry-named guards one for one, each with its value |
| Utils.GuardsFromDry | lib/dry/mutations/utils.rb:54-66 | dry-named guards other than `inclusion?` become Mutations-named guards one for one, each with its value |
| Utils.GuardsRoundTrip | lib/dry/mutations/utils.rb:42-66 | translating Mutations-named guards and passing the result back in, in any order, gives the original guards |
| Utils.GuardsLaterWins | lib/dry/mutations/utils.rb:46-47 | `inclusion?: a, included_in?: b` translates to `{in: b}` |
| Utils.GuardsPrefersDry | lib/dry/mutations/utils.rb:60-62 | with one dry name present, the dry table is used and Mutations names are dropped |
| Utils.GuardsUnknownFails | lib/dry/mutations/utils.rb:60-64 | names from neither table make the call fail, not return `{}` |
| Utils.NoEmptyGuard | lib/dry/mutations/utils.rb:55 | non-empty parameters without an `empty` key do not short-circuit |
| Utils.DefaultKeys | lib/dry/mutations/utils.rb:57-58 | without positional names, the parameters' keys are translated, in order |
| Utils.Type | lib/dry/mutations/utils.rb:69-85 | the hint is a predicate name ending in `?`, except that `string` without an explicitly falsey `strip:` gives the stripping constructor |
| Utils.TypeNames | lib/dry/mutations/utils.rb:81-83 | `integer` gives `int?`, `boolean` gives `bool?`, any other name other than `string` gives `name?` |
| Utils.TypeStringStrip | lib/dry/mutations/utils.rb:70-80 | `string` with `strip:` absent or `true` gives the stripping constructor; with `strip: false` it gives `str?` |
| Utils.TypeReadsOnlyStrip | lib/dry/mutations/utils.rb:69-85 | the hint depends on the parameters only through `strip:`, and not at all for names other than `string` |
| Utils.TypeStripOn | lib/dry/mutations/utils.rb:72 | through the ungrouped `FALSEY`, `strip: "on"` is explicitly falsey, so `string` gives `str?` |
| Errors.InsertFails | lib/dry/mutations/extensions/command.rb:100-103 | the walk down the path fails iff some non-empty prefix of the segments leads to an atom |
| Errors.InsertFailsAt | lib/dry/mutations/extensions/command.rb:100-103 | a failure names a non-empty prefix of the segments at which an atom sits |
| Errors.InsertPlaces | lib/dry/mutations/extensions/command.rb:100-104 | after a successful walk the atom sits at its address and every prefix of the path is a nested hash |
| Errors.InsertFrame | lib/dry/mutations/extensions/command.rb:100-104 | every entry whose path diverges from the address is unchanged |
| Command.MergeSpec | lib/dry/mutations/extensions/command.rb:37-42 | the merge fails, with the all-arguments message, iff some fragment, with one `Right` removed, is not a hash; otherwise it holds every fragment's keys, each with its value in the last fragment that has it |
| Command.MergeLaterWins | lib/dry/mutations/extensions/command.rb:38-42 | `{a: x}, {b: y}, {a: z}` merge into `{a: z, b: y}` |
| Command.MergeRightTransparent | lib/dry/mutations/extensions/command.rb:39 | wrapping a fragment in `Right` does not change a successful merge |
| Command.DoubleRightRejected | lib/dry/mutations/extensions/command.rb:39-40 | only one `Right` is removed, so a doubly wrapped hash is rejected |
| Command.New | lib/dry/mutations/extensions/command.rb:37-63 | construction fails iff some fragment is not a hash, with the all-arguments message; otherwise the raw inputs are the merge, the schema sees them, the inputs are its output with stringified keys, and the errors are the compiled ones when there are any, else what `validate` returns |
| Command.ValidateGated | lib/dry/mutations/extensions/command.rb:57-62 | compiled errors are kept and `validate` is not consulted; without them the errors are what `validate` leaves |
| Command.AddError | lib/dry/mutations/extensions/command.rb:87-105 | a kind that is not a symbol is rejected with `InvalidKind`, and only such a kind is; success leaves the command with errors |
| Command.AddErrorPlaces | lib/dry/mutations/extensions/command.rb:90-104 | the atom is stored under the last segment, below nested hashes named by the other segments, with the given or the default dry message, and nothing off that path changes |
| Command.AddErrorBlocked | lib/dry/mutations/extensions/command.rb:100-103 | with a symbol kind, the walk fails iff an atom lies on the path, and the failure names that atom's position (the corrected member; see Findings for the default message) |
| Command.AddErrorNests | lib/dry/mutations/extensions/command.rb:90-104 | `"a.b.c"` on no errors gives `{a: {b: {c: atom}}}`, with the intended default dry message for that path and rule `♻` (the corrected member; see Findings) |
| Command.AddErrorIndifferent | lib/dry/mutations/extensions/command.rb:99-103 | after `add_error(:a, …)`, `add_error("a.b", …)` fails at `a`: a symbol and a string with one name are one key of the error hash |
| Command.AddErrorAsWritten | lib/dry/mutations/extensions/command.rb:87-96 | without a `dry_message` and with a symbol kind, the call raises `ArgumentError` iff the key has two or more segments, the argument count then exceeding the message's four members; otherwise it is `AddError` |
| Command.NestedKeyRaises | lib/dry/mutations/extensions/command.rb:96 | for `"a.b"` without a `dry_message` the code as written raises, with five arguments, where the corrected `AddError` nests the atom |
| Command.AsWrittenAgrees | lib/dry/mutations/extensions/command.rb:96 | with a `dry_message` given, or a key of at most one segment, the code as written and the corrected member agree |
| Command.AddErrorEmptyKey | lib/dry/mutations/extensions/command.rb:90-103 | an empty key stores the atom under `nil` |
| Command.AddErrorOverwrites | lib/dry/mutations/extensions/command.rb:103 | adding twice under the same key keeps only the second atom |
| Command.Execute | lib/dry/mutations/extensions/command.rb:81-85 | a returning `execute` gives its value and errors unchanged; a raising one gives no result and its errors plus exactly one entry, under `♻`, the `runtime_exception` atom with the exception's message |
| Command.RescueIsAddError | lib/dry/mutations/extensions/command.rb:81-85 | the rescue equals `add_error(:♻, :runtime_exception, e.message)`, which stores the atom under the key `♻` |
| Command.RunRescues | lib/dry/mutations/extensions/command.rb:81-85 | an exception from `execute` does not escape: `call` gives `Left` of the errors plus the `runtime_exception` atom with the exception's message |
| Command.Run | lib/dry/mutations/extensions/command.rb:69-71 | the outcome succeeds iff it has no errors, a success carries a result, and the inputs are the command's |
| Command.Call | lib/dry/mutations/extensions/command.rb:69-71 | `Left` always carries a non-empty error hash |
| Command.RunSkipsExecute | lib/dry/mutations/extensions/command.rb:69-71 | a command constructed with errors fails with them and never consults `execute` |
| Command.RunReturns | lib/dry/mutations/extensions/command.rb:69-71 | with no errors before or after, `call` gives `Right` of exactly what `execute` returned; errors added by `execute` give `Left` |
| Command.JustWorks | spec/dry/mutations/ulises_spec.rb:84-91 | a command whose schema accepts its hash unchanged and whose `execute` returns `@inputs` succeeds with `Utils.Hash(input)` |

## Left out

- The prepended class-level hook (`command.rb:7-33`) is left out. It is
  metaprogramming over Ruby's class and `Kernel` objects. What it does:
  - it raises `ArgumentError` unless the class descends from
    `Mutations::Command`;
  - it extends the class with `DSL::Module`;
  - it defines the class methods `call` and `to_proc`;
  - it defines a `Kernel` factory method named after the class, unless
    `Kernel` already has one;
  - it prepends a `respond_to_missing?` that answers for `call` and `to_proc`.
- The schema, `Errors::ErrorCompiler` and `ErrorAtom.patch_message_set` are
  parameters (`Hooks.schema`, `Hooks.compile`). They belong to dry-validation
  and to other files of the gem.
- `validation_outcome`, `Extensions::Outcome` and the internals of
  `Mutations::ErrorHash` are left out. `Command.Run` follows the Mutations rule
  that a command fails exactly when it has errors.
- `messages` is left out. It only reads the atoms back.
- `USE_HASHIE_MASH` is not modelled, nor are the `Hashie::Mash` and
  `with_indifferent_access` branches of `Utils.Hash`. They depend on the
  environment and on optional gems, so the plain-hash backend is fixed.
- `Utils.smart_send` is left out. It is a reflective `__send__`.
- Utils.Type: the `Dry::Types::Constructor` it builds is the tag
  `StripString`, because the type library is not part of this model.
- Command.NewAtom: the source passes the path segments to
  `Dry::Validation::Message.new` as separate arguments. With two or more
  segments this raises (see Findings). With one segment the message's `path`
  is the bare symbol, and with none the arguments shift by one member. The
  model stores the intended record, with the segments as one `path` field.
- Command.AddError: it is the corrected member of the second Findings row.
  The code as written is `Command.AddErrorAsWritten`.
- Case folding of the `i` flag is modelled for ASCII letters only.
- `inspect` is modelled without escaping special characters. An object other
  than `nil`, a boolean, a string, a symbol, a hash or a `Right` is given by
  its `to_s` text and its `inspect` text as two independent strings. The
  model does not compute either from the object.
- `Mutations::ErrorArray` is not modelled. `add_error` never creates one.
- Exceptions raised by `validate`, and exceptions that are not
  `StandardError`, are not modelled. Only the rescue around `execute` is.
- Hash keys are limited to symbols, strings and `nil`. `Guards` names are
  strings; the source uses symbols. The error hash keeps keys by name, as
  indifferent access does; the original key of an atom is kept in the atom.
- Utils.Hash: a received Ruby hash never repeats a key, but a pair list can.
  For such a list the model lets the later position win. A Ruby hash literal
  with a repeated key keeps the first position and the last value, so its
  `to_s` collisions can resolve differently.
- Utils.Guards: for a parameter list that repeats a key, it likewise reads the
  later position as winning. Ruby deduplicates `params.keys`, keeping the
  first position. Its lemmas about the tables assume distinct keys.
- Command.JustWorks: `input` stands for a received hash. For a pair list that
  repeats a key, it inherits the later-position reading of `Utils.Hash`.
- Command.Run: `has_errors?` is `!@errors.nil?` in Mutations. The model
  identifies a missing error hash with an empty one.

## Findings

| source | as written | input that shows it | evidently intended | confidence | as-written member | corrected member |
|---|---|---|---|---|---|---|
| lib/dry/mutations/utils.rb:4-5 | `/\A#{Regexp.union(words).source}\z/i` puts no group around the alternation, so `\A` anchors only the first word and `\z` only the last; the middle words match anywhere | `Falsey?("falsey")` and `Truthy?("falsey")` are both truthy (`falsey` ends with `y`); `Falsey?("on")` is truthy (`on` ends with `n`) | `/\A(?:#{…})\z/i`: the input, down-cased, is one of the words | not executed | Utils.FalseyReadsAsTruthy | Utils.IntendedIsConsistent |
| lib/dry/mutations/extensions/command.rb:96 | the default message is `Message.new(kind, *path.map(&:to_sym), message, rule: :♻)`, which passes every segment as its own argument; the struct shown at lines 91-95 has four members (predicate, path, text, options) | `add_error("a.b", :k)` without a `dry_message` passes five arguments, so `Message.new` raises `ArgumentError` and nothing is stored | `Message.new(kind, path.map(&:to_sym), message, rule: :♻)`: the segments as one path | not executed; assumes `Dry::Validation::Message` is the four-member struct the comment shows | Command.NestedKeyRaises | Command.AddErrorNests |

=== FILE: command.dfy ===
/**
 What `Dry::Mutations::Extensions::Command` adds to a `Mutations::Command`:
 input fragments merged in `initialize`, the custom `validate` run only when
 the schema produced no errors, `add_error` along a dot-separated path, the
 rescue around `execute`, and `call`. The schema engine, the error compiler
 and the command's own `validate` and `execute` are parameters (`Hooks`).
 */
module Command {
  import opened Ruby
  import opened Errors
  import Utils

  datatype CommandError =
    | InvalidArguments(message: string)  // ArgumentError from `initialize`
    | InvalidKind(message: string)       // ArgumentError from `add_error`
    | NotAHash(at: seq<string>)          // NoMethodError: the path runs through an atom
    | StructSizeDiffers(given: nat)      // ArgumentError from `Dry::Validation::Message.new`

  // ---------------------------------------------------------------------------
  // Fragment merge
  // ---------------------------------------------------------------------------

  /** An argument wrapped in a dry-monads `Right` stands for the value inside; only one level is removed. */
  function Unwrap(arg: Value): (r: Value) {
    if arg.RightOf? then arg.inner else arg
  }

  /** The hash an argument contributes, once unwrapped (nothing when it is not a hash). */
  function Fragment(arg: Value): (r: map<Key, Value>) {
    var a := Unwrap(arg);
    if a.HashValue? then ToH(a.pairs) else map[]
  }

  /** `args.inspect`. */
  function InspectArgs(args: seq<Value>): (r: string) {
    "[" + Join(seq(|args|, i requires 0 <= i < |args| => Inspect(args[i])), ", ") + "]"
  }

  /** The `ArgumentError` raised for a fragment that is not a hash; it shows all the arguments. */
  function NotHashes(args: seq<Value>): (r: CommandError) {
    InvalidArguments("All arguments must be hashes. Given: " + InspectArgs(args) + ".")
  }

  /** The fold of `initialize` over the first `n` arguments: `h.merge!(arg)` for each. */
  function MergeUpTo(args: seq<Value>, n: nat): (r: Result<map<Key, Value>, CommandError>)
    requires n <= |args|
    decreases n
  {
    if n == 0 then Success(map[])
    else match MergeUpTo(args, n - 1)
      case Failure(e) => Failure(e)
      case Success(h) =>
        var arg := Unwrap(args[n - 1]);
        if !arg.HashValue? then Failure(NotHashes(args))
        else Success(h + ToH(arg.pairs))
  }

  /** `@raw_inputs`: all arguments merged left to right, or the error for a non-hash one. */
  function Merge(args: seq<Value>): (r: Result<map<Key, Value>, CommandError>) {
    MergeUpTo(args, |args|)
  }

  /** Some argument, once unwrapped, is not a hash. */
  predicate SomeNotHash(args: seq<Value>, n: int)
    requires 0 <= n <= |args|
  {
    exists i :: 0 <= i < n && !Unwrap(args[i]).HashValue?
  }

  /** No fragment after the `i`-th has the key `k`. */
  predicate LastWith(args: seq<Value>, n: int, i: int, k: Key)
    requires 0 <= i < n <= |args|
  {
    forall j :: i < j < n ==> k !in Fragment(args[j])
  }

  /** The merge fails exactly when some fragment is not a hash, and then reports all the arguments. */
  lemma {:induction false} MergeUpToFails(args: seq<Value>, n: nat)
    requires n <= |args|
    ensures MergeUpTo(args, n).Failure? <==> SomeNotHash(args, n)
    ensures MergeUpTo(args, n).Failure? ==> MergeUpTo(args, n).error == NotHashes(args)
    decreases n
  {
    if n > 0 {
      MergeUpToFails(args, n - 1);
      if SomeNotHash(args, n - 1) {
        var i :| 0 <= i < n - 1 && !Unwrap(args[i]).HashValue?;
        assert 0 <= i < n;
      }
    }
  }

  /** A successful merge holds exactly the keys of the fragments. */
  lemma {:induction false} MergeUpToKeys(args: seq<Value>, n: nat, k: Key)
    requires n <= |args| && MergeUpTo(args, n).Success?
    ensures k in MergeUpTo(args, n).value <==> exists i :: 0 <= i < n && k in Fragment(args[i])
    decreases n
  {
    if n > 0 {
      MergeUpToKeys(args, n - 1, k);
      var h := MergeUpTo(args, n - 1).value;
      var f := Fragment(args[n - 1]);
      assert MergeUpTo(args, n).value == h + f;
      if k in f {
        assert 0 <= n - 1 < n && k in Fragment(args[n - 1]);
      } else if exists i :: 0 <= i < n && k in Fragment(args[i]) {
        var i :| 0 <= i < n && k in Fragment(args[i]);
        assert i < n - 1;
      }
    }
  }

  /** Of a successful merge, each key holds its value in the last fragment that has it. */
  lemma {:induction false} MergeUpToValues(args: seq<Value>, n: nat, i: int, k: Key)
    requires 0 <= i < n <= |args| && MergeUpTo(args, n).Success?
    requires k in Fragment(args[i]) && LastWith(args, n, i, k)
    ensures k in MergeUpTo(args, n).value && MergeUpTo(args, n).value[k] == Fragment(args[i])[k]
    decreases n
  {
    if i < n - 1 {
      assert k !in Fragment(args[n - 1]);
      MergeUpToValues(args, n - 1, i, k);
    }
  }

  /**
   `@raw_inputs`: the merge fails exactly when a fragment is not a hash;
   otherwise it holds every key of every fragment, each with its value in the
   last fragment that has it (a shallow, later-wins merge).
   */
  lemma MergeSpec(args: seq<Value>)
    ensures Merge(args).Failure? <==> exists i :: 0 <= i < |args| && !Unwrap(args[i]).HashValue?
    ensures Merge(args).Failure? ==> Merge(args).error == NotHashes(args)
    ensures Merge(args).Success? ==>
      forall k :: k in Merge(args).value <==> exists i :: 0 <= i < |args| && k in Fragment(args[i])
    ensures Merge(args).Success? ==>
      forall i, k :: 0 <= i < |args| && k in Fragment(args[i]) && LastWith(args, |args|, i, k) ==>
        Merge(args).value[k] == Fragment(args[i])[k]
  {
    MergeUpToFails(args, |args|);
    if Merge(args).Success? {
      forall k {
        MergeUpToKeys(args, |args|, k);
      }
      forall i, k | 0 <= i < |args| && k in Fragment(args[i]) && LastWith(args, |args|, i, k) {
        MergeUpToValues(args, |args|, i, k);
      }
    }
  }

  /** Fragments `{a: 1}`, `{b: 2}`, `{a: 3}` merge into `{a: 3, b: 2}`. */
  lemma MergeLaterWins(x: Value, y: Value, z: Value)
    ensures Merge([HashValue([(KSym("a"), x)]), HashValue([(KSym("b"), y)]), HashValue([(KSym("a"), z)])])
      == Success(map[KSym("a") := z, KSym("b") := y])
  {
    var args := [HashValue([(KSym("a"), x)]), HashValue([(KSym("b"), y)]), HashValue([(KSym("a"), z)])];
    assert ToH([(KSym("a"), x)]) == map[KSym("a") := x];
    assert ToH([(KSym("b"), y)]) == map[KSym("b") := y];
    assert ToH([(KSym("a"), z)]) == map[KSym("a") := z];
    assert MergeUpTo(args, 0) == Success(map[]);
    assert Unwrap(args[0]) == args[0];
    assert map[] + map[KSym("a") := x] == map[KSym("a") := x];
    assert MergeUpTo(args, 1) == Success(map[KSym("a") := x]);
    assert Unwrap(args[1]) == args[1];
    assert map[KSym("a") := x] + map[KSym("b") := y] == map[KSym("a") := x, KSym("b") := y];
    assert MergeUpTo(args, 2) == Success(map[KSym("a") := x, KSym("b") := y]);
    assert Unwrap(args[2]) == args[2];
    assert map[KSym("a") := x, KSym("b") := y] + map[KSym("a") := z] == map[KSym("a") := z, KSym("b") := y];
  }

  /** A `Right` around a hash fragment is transparent: wrapping any fragment does not change a successful merge. */
  lemma {:induction false} MergeRightTransparent(args: seq<Value>, i: int, n: nat)
    requires 0 <= i < |args| && n <= |args| && !args[i].RightOf?
    requires MergeUpTo(args, n).Success?
    ensures MergeUpTo(args[i := RightOf(args[i])], n) == MergeUpTo(args, n)
    decreases n
  {
    if n > 0 {
      MergeRightTransparent(args, i, n - 1);
    }
  }

  /** Only one `Right` is removed: a doubly wrapped hash is rejected. */
  lemma DoubleRightRejected(ps: seq<(Key, Value)>)
    ensures Merge([RightOf(RightOf(HashValue(ps)))]).Failure?
  {
    assert !Unwrap(RightOf(RightOf(HashValue(ps)))).HashValue?;
  }

  // ---------------------------------------------------------------------------
  // add_error
  // ---------------------------------------------------------------------------

  /** The reserved key and rule name `:♻`. */
  const RECYCLE: string := "\U{267B}"

  /**
   The segments `add_error` walks, and the key it stores under: the popped last
   segment, a string (or `nil` for an empty path), as the error hash keys it.
   */
  function Target(key: Key): (seq<string>, EKey) {
    var path := Split(key.ToS(), '.');
    if |path| == 0 then ([], KeyOf(KNil))
    else (path[..|path| - 1], KeyOf(KStr(path[|path| - 1])))
  }

  /** The atom `add_error` stores: the given `dry_message`, or one built from the kind, the path and the message. */
  function NewAtom(key: Key, kind: string, message: Option<string>, dryMessage: Option<DryMessage>): (r: Atom) {
    var dm := if dryMessage.Some? then dryMessage.value
      else DryMessage(kind, Split(key.ToS(), '.'), message, RECYCLE);
    Atom(key, kind, message, None, dm)
  }

  /**
   `add_error(key, kind, message, dry_message)` on the error hash `h` (a
   missing hash is the empty one): a kind that is not a symbol is rejected
   first; otherwise the atom is stored under the last dot-separated segment
   of `key`, inside nested hashes named by the segments before it.
   */
  function AddError(h: ErrorHash, key: Key, kind: Value, message: Option<string>, dryMessage: Option<DryMessage>)
    : (r: Result<ErrorHash, CommandError>)
    ensures r.Success? ==> HasErrors(r.value)
    ensures r.Failure? && r.error.InvalidKind? <==> !kind.Sym?
  {
    if !kind.Sym? then Failure(InvalidKind("Invalid kind " + ToS(kind)))
    else
      var (parts, last) := Target(key);
      match Insert(h, parts, last, Leaf(NewAtom(key, kind.name, message, dryMessage)))
      case Failure(p) => Failure(NotAHash(p))
      case Success(h') =>
        assert Get(h', Address(parts, last)).Some? by {
          InsertPlaces(h, parts, last, Leaf(NewAtom(key, kind.name, message, dryMessage)));
        }
        Success(h')
  }

  /**
   With a symbol kind, `add_error` stores its atom at the address the key names,
   creating the nested hashes on the way, and leaves every entry off that
   address as it was.
   */
  lemma AddErrorPlaces(h: ErrorHash, key: Key, kind: Value, message: Option<string>, dryMessage: Option<DryMessage>, q: seq<EKey>)
    requires AddError(h, key, kind, message, dryMessage).Success?
    ensures kind.Sym?
    ensures Get(AddError(h, key, kind, message, dryMessage).value, Address(Target(key).0, Target(key).1))
      == Some(Leaf(Atom(key, kind.name, message, None,
           if dryMessage.Some? then dryMessage.value else DryMessage(kind.name, Split(key.ToS(), '.'), message, RECYCLE))))
    ensures Diverges(q, Address(Target(key).0, Target(key).1)) ==>
      Get(AddError(h, key, kind, message, dryMessage).value, q) == Get(h, q)
  {
    var (parts, last) := Target(key);
    var t := Leaf(NewAtom(key, kind.name, message, dryMessage));
    InsertPlaces(h, parts, last, t);
    if Diverges(q, Address(parts, last)) {
      InsertFrame(h, parts, last, t, q);
    }
  }

  /** With a symbol kind, `add_error` fails exactly when an atom lies where a nested hash is needed. */
  lemma AddErrorBlocked(h: ErrorHash, key: Key, kind: Value, message: Option<string>, dryMessage: Option<DryMessage>)
    requires kind.Sym?
    ensures AddError(h, key, kind, message, dryMessage).Failure? <==> Blocked(h, Target(key).0)
    ensures AddError(h, key, kind, message, dryMessage).Failure? ==>
      var e := AddError(h, key, kind, message, dryMessage).error;
      e.NotAHash? && |e.at| >= 1 && AtomAt(h, NamePath(e.at))
  {
    var (parts, last) := Target(key);
    var t := Leaf(NewAtom(key, kind.name, message, dryMessage));
    InsertFails(h, parts, last, t);
    if Insert(h, parts, last, t).Failure? {
      InsertFailsAt(h, parts, last, t);
    }
  }

  lemma SplitABC()
    ensures Split("a.b.c", '.') == ["a", "b", "c"]
  {
    assert "c"[1..] == "" && ".c"[1..] == "c" && "b.c"[1..] == ".c" && ".b.c"[1..] == "b.c" && "a.b.c"[1..] == ".b.c";
    assert ['c'] + "" == "c" && ['b'] + "" == "b" && ['a'] + "" == "a";
    assert Fields("c", '.') == ["c"] by {
      assert Fields("", '.') == [""];
      assert [""][1..] == [];
    }
    assert Fields(".c", '.') == ["", "c"];
    assert Fields("b.c", '.') == ["b", "c"] by {
      assert ["", "c"][1..] == ["c"];
    }
    assert Fields(".b.c", '.') == ["", "b", "c"];
    assert Fields("a.b.c", '.') == ["a", "b", "c"] by {
      assert ["", "b", "c"][1..] == ["b", "c"];
    }
  }

  /** `add_error("a.b.c", :k)` on an empty tree nests the atom under `a`, then `b`, then `c`. */
  lemma AddErrorNests(k: string, m: Option<string>)
    ensures AddError(map[], KStr("a.b.c"), Sym(k), m, None) == Success(map[
      Named("a") := Node(map[
        Named("b") := Node(map[
          Named("c") := Leaf(Atom(KStr("a.b.c"), k, m, None, DryMessage(k, ["a", "b", "c"], m, "\U{267B}")))])])])
  {
    SplitABC();
    var path := ["a", "b", "c"];
    assert path[..2] == ["a", "b"];
    assert Target(KStr("a.b.c")) == (["a", "b"], Named("c"));
    var t := Leaf(NewAtom(KStr("a.b.c"), k, m, None));
    assert t == Leaf(Atom(KStr("a.b.c"), k, m, None, DryMessage(k, ["a", "b", "c"], m, "\U{267B}")));
    var parts := ["a", "b"];
    assert parts[1..] == ["b"] && parts[1..][1..] == [];
    assert Insert(map[], [], Named("c"), t) == Success(map[Named("c") := t]);
    assert Insert(map[], ["b"], Named("c"), t) == Success(map[Named("b") := Node(map[Named("c") := t])]);
    assert Insert(map[], parts, Named("c"), t)
      == Success(map[Named("a") := Node(map[Named("b") := Node(map[Named("c") := t])])]);
  }

  /** A key with no segments (`""`, `"."`) stores its atom under `nil`. */
  lemma AddErrorEmptyKey(h: ErrorHash, kind: string, m: Option<string>)
    ensures AddError(h, KStr(""), Sym(kind), m, None)
      == Success(h[NilKey := Leaf(Atom(KStr(""), kind, m, None, DryMessage(kind, [], m, RECYCLE)))])
  {
    assert Fields("", '.') == [""];
    assert Split("", '.') == [];
  }

  /** A second `add_error` at the same key replaces the first atom. */
  lemma AddErrorOverwrites(h: ErrorHash, key: Key, k1: Value, k2: Value, m1: Option<string>, m2: Option<string>)
    requires AddError(h, key, k1, m1, None).Success?
    ensures AddError(AddError(h, key, k1, m1, None).value, key, k2, m2, None).Success? <==> k2.Sym?
    ensures k2.Sym? ==>
      (Get(AddError(AddError(h, key, k1, m1, None).value, key, k2, m2, None).value, Address(Target(key).0, Target(key).1))
         == Some(Leaf(NewAtom(key, k2.name, m2, None))))
  {
    var (parts, last) := Target(key);
    var h1 := AddError(h, key, k1, m1, None).value;
    InsertPlaces(h, parts, last, Leaf(NewAtom(key, k1.name, m1, None)));
    if k2.Sym? {
      InsertFails(h1, parts, last, Leaf(NewAtom(key, k2.name, m2, None)));
      InsertPlaces(h1, parts, last, Leaf(NewAtom(key, k2.name, m2, None)));
    }
  }

  /** A symbol key and a string key with the same name are one key: an atom under `:a` blocks `"a.b"`. */
  lemma AddErrorIndifferent(k1: string, k2: string, m1: Option<string>, m2: Option<string>)
    ensures AddError(map[], KSym("a"), Sym(k1), m1, None).Success?
    ensures AddError(AddError(map[], KSym("a"), Sym(k1), m1, None).value, KStr("a.b"), Sym(k2), m2, None)
      == Failure(NotAHash(["a"]))
  {
    SplitSingle("a", '.');
    assert Target(KSym("a")) == ([], Named("a"));
    var t1 := Leaf(NewAtom(KSym("a"), k1, m1, None));
    var h := map[Named("a") := t1];
    assert Insert(map[], [], Named("a"), t1) == Success(h);
    assert AddError(map[], KSym("a"), Sym(k1), m1, None) == Success(h);
    SplitAB();
    assert ["a", "b"][..1] == ["a"];
    assert Target(KStr("a.b")) == (["a"], Named("b"));
    assert Insert(h, ["a"], Named("b"), Leaf(NewAtom(KStr("a.b"), k2, m2, None))) == Failure(["a"]);
  }

  lemma SplitAB()
    ensures Split("a.b", '.') == ["a", "b"]
  {
    assert "b"[1..] == "" && ".b"[1..] == "b" && "a.b"[1..] == ".b";
    assert ['b'] + "" == "b" && ['a'] + "" == "a";
    assert Fields("b", '.') == ["b"] by {
      assert Fields("", '.') == [""];
      assert [""][1..] == [];
    }
    assert Fields(".b", '.') == ["", "b"];
    assert Fields("a.b", '.') == ["a", "b"] by {
      assert ["", "b"][1..] == ["b"];
    }
  }

  /** The number of members of `Dry::Validation::Message`: predicate, path, text and options. */
  const MESSAGE_MEMBERS: nat := 4

  /**
   `add_error` as written. Without a `dry_message`, the default message gets
   the kind, then each segment of the key as an argument of its own, then the
   message and the options: three arguments more than there are segments.
   With two or more segments that exceeds the message's four members, and
   the constructor raises `ArgumentError` before anything is stored.
   */
  function AddErrorAsWritten(h: ErrorHash, key: Key, kind: Value, message: Option<string>, dryMessage: Option<DryMessage>)
    : (r: Result<ErrorHash, CommandError>)
    ensures r.Failure? && r.error.StructSizeDiffers? <==>
      kind.Sym? && dryMessage.None? && |Split(key.ToS(), '.')| >= 2
    ensures r.Failure? && r.error.StructSizeDiffers? ==> r.error.given > MESSAGE_MEMBERS
    ensures !(r.Failure? && r.error.StructSizeDiffers?) ==> r == AddError(h, key, kind, message, dryMessage)
  {
    var given := 3 + |Split(key.ToS(), '.')|;
    if kind.Sym? && dryMessage.None? && given > MESSAGE_MEMBERS then Failure(StructSizeDiffers(given))
    else AddError(h, key, kind, message, dryMessage)
  }

  /**
   The discrepancy: for a dotted key without a `dry_message`, the corrected
   `AddError` nests the atom while the code as written raises.
   */
  lemma NestedKeyRaises(k: string, m: Option<string>)
    ensures AddErrorAsWritten(map[], KStr("a.b"), Sym(k), m, None) == Failure(StructSizeDiffers(5))
    ensures AddError(map[], KStr("a.b"), Sym(k), m, None)
      == Success(map[Named("a") := Node(map[Named("b") := Leaf(NewAtom(KStr("a.b"), k, m, None))])])
  {
    SplitAB();
    assert ["a", "b"][..1] == ["a"];
    assert Target(KStr("a.b")) == (["a"], Named("b"));
  }

  /** With a `dry_message` given, or a key of at most one segment, the code as written and the corrected one agree. */
  lemma AsWrittenAgrees(h: ErrorHash, key: Key, kind: Value, message: Option<string>, dryMessage: Option<DryMessage>)
    requires dryMessage.Some? || |Split(key.ToS(), '.')| <= 1
    ensures AddErrorAsWritten(h, key, kind, message, dryMessage) == AddError(h, key, kind, message, dryMessage)
  {
  }

  // ---------------------------------------------------------------------------
  // Construction, execution and `call`
  // ---------------------------------------------------------------------------

  /** What the schema returns for the raw inputs: its output and the failure description it compiles from. */
  datatype Validation<A> = Validation(output: seq<(Key, Value)>, ast: A)

  /** How the command's own `execute` ended, and the error hash at that point. */
  datatype Step<R> = Returned(value: R, errors: ErrorHash) | Raised(message: string, errors: ErrorHash)

  /**
   The code the extension calls but does not define: applying the schema, the
   error compiler (with the message patching after it), and the command's
   `validate` and `execute`, which see the inputs and the current error hash.
   */
  datatype Hooks<!A, R> = Hooks(
    schema: map<Key, Value> -> Validation<A>,
    compile: A -> ErrorHash,
    validate: (map<string, Value>, ErrorHash) -> ErrorHash,
    execute: (map<string, Value>, ErrorHash) -> Step<R>)

  /** A constructed command: its raw inputs, the schema's verdict, `@inputs` and `@errors`. */
  datatype Instance<!A, R> = Instance(
    hooks: Hooks<A, R>,
    rawInputs: map<Key, Value>,
    validation: Validation<A>,
    inputs: map<string, Value>,
    errors: ErrorHash)

  /** `Mutations::Outcome`: success, the result, the errors and the inputs. */
  datatype Outcome<R> = Outcome(success: bool, result: Option<R>, errors: ErrorHash, inputs: map<string, Value>)

  /** The two arms `call` returns: dry-monads' `Right(result)` or `Left(errors)`. */
  datatype Either<R> = Right(value: R) | Left(errors: ErrorHash)

  /**
   `initialize(*args)`: merges the fragments (raising before the schema is
   applied when one is not a hash), applies the schema, keeps its output with
   stringified keys as the inputs, compiles the errors, and runs `validate`
   only when there are none.
   */
  function New<A, R>(args: seq<Value>, hooks: Hooks<A, R>): (r: Result<Instance<A, R>, CommandError>)
    ensures r.Failure? <==> exists i :: 0 <= i < |args| && !Unwrap(args[i]).HashValue?
    ensures r.Failure? ==> r.error == NotHashes(args)
    ensures r.Success? ==> r.value.hooks == hooks && r.value.validation == hooks.schema(r.value.rawInputs)
    ensures r.Success? ==> Merge(args).Success? && r.value.rawInputs == Merge(args).value
    ensures r.Success? ==> r.value.inputs == Utils.Hash(r.value.validation.output)
    ensures r.Success? ==>
      var compiled := hooks.compile(r.value.validation.ast);
      r.value.errors == if HasErrors(compiled) then compiled else hooks.validate(r.value.inputs, map[])
  {
    MergeSpec(args);
    match Merge(args)
    case Failure(e) => Failure(e)
    case Success(raw) =>
      var v := hooks.schema(raw);
      var inputs := Utils.Hash(v.output);
      var errors := hooks.compile(v.ast);
      Success(Instance(hooks, raw, v, inputs, if HasErrors(errors) then errors else hooks.validate(inputs, errors)))
  }

  /** The atom the rescue in `execute` adds for an exception with message `m`. */
  function RuntimeAtom(m: string): (r: Atom) {
    NewAtom(KSym(RECYCLE), "runtime_exception", Some(m), None)
  }

  /**
   The command's own `execute` with the extension's rescue around it: the
   command's result, or none when it raised, and the error hash afterwards.
   An exception is turned into a `runtime_exception` atom under `♻` carrying
   the exception's message.
   */
  function Execute<A, R>(c: Instance<A, R>): (r: (Option<R>, ErrorHash))
    ensures r.0.None? ==> HasErrors(r.1)
    ensures c.hooks.execute(c.inputs, c.errors).Returned? ==>
      r == (Some(c.hooks.execute(c.inputs, c.errors).value), c.hooks.execute(c.inputs, c.errors).errors)
    ensures c.hooks.execute(c.inputs, c.errors).Raised? ==>
      var e := c.hooks.execute(c.inputs, c.errors).errors;
      && r.0.None?
      && (forall k :: k in r.1 <==> k in e || k == Named(RECYCLE))
      && r.1[Named(RECYCLE)] == Leaf(RuntimeAtom(c.hooks.execute(c.inputs, c.errors).message))
      && (forall k :: k in e && k != Named(RECYCLE) ==> r.1[k] == e[k])
  {
    match c.hooks.execute(c.inputs, c.errors)
    case Returned(v, e) => (Some(v), e)
    case Raised(m, e) =>
      var e' := e[Named(RECYCLE) := Leaf(RuntimeAtom(m))];
      assert Named(RECYCLE) in e';
      (None, e')
  }

  /**
   `run`: a command with errors fails without executing; otherwise it executes
   and succeeds with the result unless errors were added meanwhile.
   */
  function Run<A, R>(c: Instance<A, R>): (o: Outcome<R>)
    ensures o.success <==> !HasErrors(o.errors)
    ensures o.success ==> o.result.Some?
    ensures o.inputs == c.inputs
  {
    if HasErrors(c.errors) then Outcome(false, None, c.errors, c.inputs)
    else
      var (v, e) := Execute(c);
      if HasErrors(e) then Outcome(false, None, e, c.inputs)
      else Outcome(true, v, e, c.inputs)
  }

  /** `call`: `run.either`, the result on success and the errors otherwise. */
  function Call<A, R>(c: Instance<A, R>): (r: Either<R>)
    ensures r.Left? ==> HasErrors(r.errors)
  {
    var o := Run(c);
    if o.success then Right(o.result.value) else Left(o.errors)
  }

  /** The rescue is exactly `add_error(:♻, :runtime_exception, e.message)`: the atom goes under the key `♻`. */
  lemma RescueIsAddError(e: ErrorHash, m: string)
    ensures AddError(e, KSym(RECYCLE), Sym("runtime_exception"), Some(m), None)
      == Success(e[Named(RECYCLE) := Leaf(RuntimeAtom(m))])
  {
    SplitSingle(RECYCLE, '.');
    assert Target(KSym(RECYCLE)) == ([], Named(RECYCLE));
  }

  /**
   The custom validation is gated on the compiled errors: when they are not empty they
   are the command's errors whatever `validate` would do; when they are empty,
   the errors are what `validate` leaves.
   */
  lemma ValidateGated<A, R>(args: seq<Value>, hooks: Hooks<A, R>, other: (map<string, Value>, ErrorHash) -> ErrorHash)
    requires New(args, hooks).Success?
    ensures var c := New(args, hooks).value;
      var compiled := hooks.compile(c.validation.ast);
      && (HasErrors(compiled) ==> c.errors == compiled && New(args, hooks.(validate := other)).value.errors == compiled)
      && (!HasErrors(compiled) ==> c.errors == hooks.validate(c.inputs, map[]))
  {
  }

  /** A command constructed with errors fails with them, and its `execute` is never consulted. */
  lemma RunSkipsExecute<A, R>(c: Instance<A, R>, other: (map<string, Value>, ErrorHash) -> Step<R>)
    requires HasErrors(c.errors)
    ensures Run(c) == Outcome(false, None, c.errors, c.inputs)
    ensures Run(c.(hooks := c.hooks.(execute := other))) == Run(c)
    ensures Call(c) == Left(c.errors)
  {
  }

  /**
   An exception from `execute` does not escape: `call` gives `Left` of the
   error hash with one more atom, under `"♻"`, of kind `runtime_exception`
   and with the exception's message; from no errors, it is the only atom.
   */
  lemma RunRescues<A, R>(c: Instance<A, R>, m: string, e: ErrorHash)
    requires !HasErrors(c.errors) && c.hooks.execute(c.inputs, c.errors) == Raised(m, e)
    ensures Call(c) == Left(e[Named("\U{267B}") := Leaf(Atom(KSym("\U{267B}"), "runtime_exception", Some(m), None,
      DryMessage("runtime_exception", ["\U{267B}"], Some(m), "\U{267B}")))])
  {
    SplitSingle(RECYCLE, '.');
  }

  /** With no errors before or after, `call` gives `Right` of exactly what `execute` returned; errors it added give `Left`. */
  lemma RunReturns<A, R>(c: Instance<A, R>, v: R, e: ErrorHash)
    requires !HasErrors(c.errors) && c.hooks.execute(c.inputs, c.errors) == Returned(v, e)
    ensures !HasErrors(e) ==> Call(c) == Right(v)
    ensures HasErrors(e) ==> Call(c) == Left(e)
  {
  }

  /**
   A command whose schema accepts its single hash argument unchanged, whose
   `validate` adds nothing and whose `execute` returns `@inputs` succeeds with
   `Utils.Hash(input)`.
   */
  lemma JustWorks<A>(input: seq<(Key, Value)>, hooks: Hooks<A, map<string, Value>>, ast: A)
    requires hooks.schema(ToH(input)) == Validation(input, ast)
    requires hooks.compile(ast) == map[]
    requires hooks.validate(Utils.Hash(input), map[]) == map[]
    requires hooks.execute(Utils.Hash(input), map[]) == Returned(Utils.Hash(input), map[])
    ensures New([HashValue(input)], hooks).Success?
    ensures Call(New([HashValue(input)], hooks).value) == Right(Utils.Hash(input))
  {
    MergeOne(input);
    var c := New([HashValue(input)], hooks).value;
    assert c.inputs == Utils.Hash(input) && c.errors == map[];
    RunReturns(c, Utils.Hash(input), map[]);
  }

  /** A single hash argument is the raw input as it stands. */
  lemma MergeOne(ps: seq<(Key, Value)>)
    ensures Merge([HashValue(ps)]) == Success(ToH(ps))
  {
    assert MergeUpTo([HashValue(ps)], 0) == Success(map[]);
    assert map[] + ToH(ps) == ToH(ps);
  }
}

=== FILE: errors.dfy ===
/**
 The error tree a command accumulates: nested `Mutations::ErrorHash`es whose
 leaves are `ErrorAtom`s, and the insertion `add_error` performs along a
 dot-separated path.
 */
module Errors {
  import opened Ruby

  /** The `Dry::Validation::Message` an atom refers to, as an opaque record. */
  datatype DryMessage = DryMessage(predicateName: string, path: seq<string>, text: Option<string>, rule: string)

  /** One leaf error: the key it was added under, its kind, its message and array index. */
  datatype Atom = Atom(key: Key, kind: string, message: Option<string>, index: Option<nat>, dryMessage: DryMessage)

  /**
   A key of an error hash. `Mutations::ErrorHash` is a hash with indifferent
   access: a symbol and a string with the same name are one key, kept as the
   string; `nil` stays `nil`.
   */
  datatype EKey = Named(name: string) | NilKey

  /** The key under which an error hash stores `k`. */
  function KeyOf(k: Key): (e: EKey)
    ensures e.Named? <==> !k.KNil?
    ensures e.Named? ==> e.name == k.ToS()
  {
    match k
    case KSym(n) => Named(n)
    case KStr(t) => Named(t)
    case KNil => NilKey
  }

  /** An entry of an error hash: a nested error hash or an atom. */
  datatype ETree = Node(children: map<EKey, ETree>) | Leaf(atom: Atom)

  type ErrorHash = map<EKey, ETree>

  /** `has_errors?`: a missing error hash and an empty one both mean "no errors". */
  predicate HasErrors(h: ErrorHash) {
    h != map[]
  }

  /** The entry reached by following `q` key by key from the root (`[]` is the root itself). */
  function Get(h: ErrorHash, q: seq<EKey>): (r: Option<ETree>)
    decreases |q|
  {
    if |q| == 0 then Some(Node(h))
    else if q[0] !in h then None
    else if |q| == 1 then Some(h[q[0]])
    else match h[q[0]]
      case Leaf(_) => None
      case Node(c) => Get(c, q[1..])
  }

  /** The intermediate keys `add_error` walks: each segment, by name. */
  function NamePath(parts: seq<string>): (q: seq<EKey>)
    ensures |q| == |parts|
    ensures forall i :: 0 <= i < |parts| ==> q[i] == Named(parts[i])
  {
    seq(|parts|, i requires 0 <= i < |parts| => Named(parts[i]))
  }

  /** `q` and `a` differ at some position both have. */
  predicate Diverges(q: seq<EKey>, a: seq<EKey>)
    decreases |q|
  {
    |q| > 0 && |a| > 0 && (q[0] != a[0] || Diverges(q[1..], a[1..]))
  }

  /**
   The walk of `add_error`: for each segment, descends into the nested error
   hash under that name, creating an empty one where the name is missing;
   then stores `t` under `last`. Reaching an atom where a hash is needed
   fails with the segments walked so far, the atom's position.
   */
  function Insert(h: ErrorHash, parts: seq<string>, last: EKey, t: ETree): (r: Result<ErrorHash, seq<string>>)
    decreases |parts|
  {
    if |parts| == 0 then Success(h[last := t])
    else
      var k := Named(parts[0]);
      if k in h && h[k].Leaf? then Failure([parts[0]])
      else
        var sub := if k in h then h[k].children else map[];
        match Insert(sub, parts[1..], last, t)
        case Failure(p) => Failure([parts[0]] + p)
        case Success(sub') => Success(h[k := Node(sub')])
  }

  /** The entry at `q` is an atom. */
  predicate AtomAt(h: ErrorHash, q: seq<EKey>) {
    Get(h, q).Some? && Get(h, q).value.Leaf?
  }

  /** An atom lies on the way: some non-empty prefix of the segments leads to an atom. */
  predicate Blocked(h: ErrorHash, parts: seq<string>) {
    exists i :: 1 <= i <= |parts| && AtomAt(h, NamePath(parts[..i]))
  }

  lemma GetStep(h: ErrorHash, q: seq<EKey>)
    requires |q| >= 2 && q[0] in h && h[q[0]].Node?
    ensures Get(h, q) == Get(h[q[0]].children, q[1..])
  {
  }

  /** A path whose first key is absent reads nothing. */
  lemma GetMissing(h: ErrorHash, q: seq<EKey>)
    requires |q| >= 1 && q[0] !in h
    ensures Get(h, q) == None
  {
  }

  lemma NamePathTail(parts: seq<string>, i: int)
    requires 1 <= i <= |parts|
    ensures NamePath(parts[..i])[0] == Named(parts[0])
    ensures NamePath(parts[..i])[1..] == NamePath(parts[1..][..i - 1])
  {
  }

  /** Insertion fails exactly when an atom lies on the way. */
  lemma {:induction false} InsertFails(h: ErrorHash, parts: seq<string>, last: EKey, t: ETree)
    ensures Insert(h, parts, last, t).Failure? <==> Blocked(h, parts)
    decreases |parts|
  {
    if Insert(h, parts, last, t).Failure? {
      InsertFailsAt(h, parts, last, t);
      var p := Insert(h, parts, last, t).error;
      assert AtomAt(h, NamePath(parts[..|p|]));
    } else if |parts| > 0 {
      var k := Named(parts[0]);
      var sub := if k in h then h[k].children else map[];
      InsertFails(sub, parts[1..], last, t);
      forall i | 1 <= i <= |parts| ensures !AtomAt(h, NamePath(parts[..i])) {
        NamePathTail(parts, i);
        if i == 1 {
          assert NamePath(parts[..1]) == [k];
        } else if k !in h {
          GetMissing(h, NamePath(parts[..i]));
        } else {
          GetStep(h, NamePath(parts[..i]));
        }
      }
    }
  }

  /** A failed insertion reports the segments leading to the atom that blocked it. */
  lemma {:induction false} InsertFailsAt(h: ErrorHash, parts: seq<string>, last: EKey, t: ETree)
    requires Insert(h, parts, last, t).Failure?
    ensures var p := Insert(h, parts, last, t).error;
      1 <= |p| <= |parts| && p == parts[..|p|] && AtomAt(h, NamePath(p))
    decreases |parts|
  {
    var k := Named(parts[0]);
    var p := Insert(h, parts, last, t).error;
    if k in h && h[k].Leaf? {
      assert NamePath([parts[0]]) == [k];
    } else {
      var sub := if k in h then h[k].children else map[];
      InsertFailsAt(sub, parts[1..], last, t);
      var p' := Insert(sub, parts[1..], last, t).error;
      if k !in h {
        assert false;
      }
      assert p == [parts[0]] + p';
      assert parts[..|p|] == [parts[0]] + parts[1..][..|p'|];
      assert NamePath(p) == [k] + NamePath(p');
      GetStep(h, NamePath(p));
    }
  }

  /** Where `Insert(h, parts, last, t)` stores `t`. */
  function Address(parts: seq<string>, last: EKey): (a: seq<EKey>)
    ensures |a| == |parts| + 1 && a[|parts|] == last
  {
    NamePath(parts) + [last]
  }

  lemma AddressTail(parts: seq<string>, last: EKey)
    requires |parts| > 0
    ensures Address(parts, last)[0] == Named(parts[0])
    ensures Address(parts, last)[1..] == Address(parts[1..], last)
  {
  }

  /** A successful insertion stores `t` at its address, having created the nested hashes on the way. */
  lemma {:induction false} InsertPlaces(h: ErrorHash, parts: seq<string>, last: EKey, t: ETree)
    requires Insert(h, parts, last, t).Success?
    ensures Get(Insert(h, parts, last, t).value, Address(parts, last)) == Some(t)
    ensures forall i :: 0 <= i <= |parts| ==>
      Get(Insert(h, parts, last, t).value, NamePath(parts[..i])).Some? &&
      Get(Insert(h, parts, last, t).value, NamePath(parts[..i])).value.Node?
    decreases |parts|
  {
    var h' := Insert(h, parts, last, t).value;
    if |parts| == 0 {
      assert Address(parts, last) == [last];
      assert parts[..0] == [];
    } else {
      var k := Named(parts[0]);
      var sub := if k in h then h[k].children else map[];
      InsertPlaces(sub, parts[1..], last, t);
      var sub' := Insert(sub, parts[1..], last, t).value;
      assert h'[k] == Node(sub');
      AddressTail(parts, last);
      GetStep(h', Address(parts, last));
      forall i | 0 <= i <= |parts|
        ensures Get(h', NamePath(parts[..i])).Some? && Get(h', NamePath(parts[..i])).value.Node?
      {
        if i == 0 {
          assert parts[..0] == [];
        } else if i == 1 {
          assert NamePath(parts[..1]) == [k];
        } else {
          NamePathTail(parts, i);
          GetStep(h', NamePath(parts[..i]));
        }
      }
    }
  }

  /** A successful insertion leaves every entry off its address as it was. */
  lemma {:induction false} InsertFrame(h: ErrorHash, parts: seq<string>, last: EKey, t: ETree, q: seq<EKey>)
    requires Insert(h, parts, last, t).Success?
    requires Diverges(q, Address(parts, last))
    ensures Get(Insert(h, parts, last, t).value, q) == Get(h, q)
    decreases |parts|
  {
    var h' := Insert(h, parts, last, t).value;
    var a := Address(parts, last);
    if |parts| > 0 {
      var k := Named(parts[0]);
      AddressTail(parts, last);
      if q[0] == k {
        var sub := if k in h then h[k].children else map[];
        InsertFrame(sub, parts[1..], last, t, q[1..]);
        GetStep(h', q);
        if k in h {
          GetStep(h, q);
        } else {
          assert Get(sub, q[1..]) == None;
        }
      }
    }
  }
}

=== FILE: ruby.dfy ===
/**
 The Ruby values, hash keys and core-library behaviour the modelled code relies on:
 `to_s`, truthiness, `Array#to_h` / repeated `Hash#[]=`, and `String#split`.
 */
module Ruby {

  datatype Option<+T> = None | Some(value: T)

  datatype Result<+T, +E> = Success(value: T) | Failure(error: E)

  /** A hash key as the modelled code receives or produces one: a symbol, a string, or `nil`. */
  datatype Key = KSym(name: string) | KStr(text: string) | KNil {

    /** `Symbol#to_s`, `String#to_s`, `nil.to_s`. */
    function ToS(): (r: string) {
      match this
      case KSym(n) => n
      case KStr(t) => t
      case KNil => ""
    }

    /** `inspect`, as used inside a hash's `to_s` (no escaping of special characters). */
    function Inspect(): (r: string) {
      match this
      case KSym(n) => ":" + n
      case KStr(t) => "\"" + t + "\""
      case KNil => "nil"
    }
  }

  /**
   A Ruby value. `HashValue` is a hash given by its entries in insertion order;
   `RightOf` is a dry-monads `Right` wrapping a value; `Obj` is any other object
   (a number, a date, a model instance), known only by its `to_s` text and its
   `inspect` representation, which in general differ.
   */
  datatype Value =
    | Nil
    | Bool(b: bool)
    | Str(s: string)
    | Sym(name: string)
    | HashValue(pairs: seq<(Key, Value)>)
    | RightOf(inner: Value)
    | Obj(text: string, repr: string)

  /** Ruby truthiness: everything except `nil` and `false`. */
  predicate RTest(v: Value) {
    !(v.Nil? || v == Bool(false))
  }

  /** `Object#inspect` in the Ruby 2 format (`{:a=>1}`), without escaping. */
  function Inspect(v: Value): (r: string)
    decreases v
  {
    match v
    case Nil => "nil"
    case Bool(b) => if b then "true" else "false"
    case Str(s) => "\"" + s + "\""
    case Sym(n) => ":" + n
    case Obj(_, r) => r
    case RightOf(x) => "Right(" + Inspect(x) + ")"
    case HashValue(ps) =>
      "{" + Join(seq(|ps|, i requires 0 <= i < |ps| => ps[i].0.Inspect() + "=>" + Inspect(ps[i].1)), ", ") + "}"
  }

  /** `Object#to_s`. */
  function ToS(v: Value): (r: string) {
    match v
    case Nil => ""
    case Bool(b) => if b then "true" else "false"
    case Str(s) => s
    case Sym(n) => n
    case Obj(t, _) => t
    case _ => Inspect(v)
  }

  /** `Array#join(sep)`. */
  function Join(fs: seq<string>, sep: string): (r: string)
  {
    if |fs| == 0 then ""
    else if |fs| == 1 then fs[0]
    else fs[0] + sep + Join(fs[1..], sep)
  }

  // ---------------------------------------------------------------------------
  // Hashes built from pairs
  // ---------------------------------------------------------------------------

  /** Entry `i` of `ps` is the last one with its key. */
  ghost predicate LastOf<K, V>(ps: seq<(K, V)>, i: int)
    requires 0 <= i < |ps|
  {
    forall j :: i < j < |ps| ==> ps[j].0 != ps[i].0
  }

  /** `Hash#keys`, in insertion order. */
  function KeysOf<K, V>(ps: seq<(K, V)>): (ks: seq<K>)
    ensures |ks| == |ps|
    ensures forall i :: 0 <= i < |ps| ==> ks[i] == ps[i].0
  {
    seq(|ps|, i requires 0 <= i < |ps| => ps[i].0)
  }

  /**
   `Array#to_h`, equally a fresh hash receiving `h[k] = v` for each pair in
   order: every key of the pairs is present, and a later pair with the same
   key overwrites an earlier one.
   */
  function ToH<K(==,!new), V>(ps: seq<(K, V)>): (m: map<K, V>)
    ensures forall k :: k in m <==> k in KeysOf(ps)
    ensures forall i :: 0 <= i < |ps| && LastOf(ps, i) ==> m[ps[i].0] == ps[i].1
  {
    if |ps| == 0 then map[]
    else
      var n := |ps| - 1;
      var init := ps[..n];
      assert KeysOf(ps) == KeysOf(init) + [ps[n].0];
      var r := ToH(init)[ps[n].0 := ps[n].1];
      assert forall i :: 0 <= i < |ps| && LastOf(ps, i) ==> r[ps[i].0] == ps[i].1 by {
        forall i | 0 <= i < n && LastOf(ps, i) ensures r[ps[i].0] == ps[i].1 {
          assert init[i] == ps[i];
          assert LastOf(init, i) by {
            assert forall j :: i < j < n ==> init[j] == ps[j];
          }
          assert ps[i].0 != ps[n].0;
        }
      }
      r
  }

  /** The position of the last pair whose key is `k`. */
  lemma LastIndex<K(!new), V>(ps: seq<(K, V)>, k: K) returns (i: int)
    requires k in ToH(ps)
    ensures 0 <= i < |ps| && ps[i].0 == k && LastOf(ps, i)
    ensures ToH(ps)[k] == ps[i].1
  {
    assert k in KeysOf(ps);
    var j :| 0 <= j < |ps| && ps[j].0 == k;
    i := j;
    while i + 1 < |ps| && exists l :: i < l < |ps| && ps[l].0 == k
      invariant 0 <= i < |ps| && ps[i].0 == k
      decreases |ps| - i
    {
      var l :| i < l < |ps| && ps[l].0 == k;
      i := l;
    }
  }

  /** A map with the keys of `ps`, holding each key's last value, is `ps.to_h`. */
  lemma ToHIs<K(!new), V>(ps: seq<(K, V)>, m: map<K, V>)
    requires forall k :: k in m <==> k in KeysOf(ps)
    requires forall i :: 0 <= i < |ps| && LastOf(ps, i) ==> m[ps[i].0] == ps[i].1
    ensures ToH(ps) == m
  {
    var h := ToH(ps);
    forall k | k in m ensures h[k] == m[k] {
      var i := LastIndex(ps, k);
    }
  }

  /** `Hash#[]`: the value stored under `k`, or `nil`. */
  function Lookup<K(==,!new)>(ps: seq<(K, Value)>, k: K): (r: Value) {
    var m := ToH(ps);
    if k in m then m[k] else Nil
  }

  /** Every key of the pairs is present in the hash, and `Hash#[]` reads it from there. */
  lemma LookupPresent<K(!new)>(ps: seq<(K, Value)>, i: int)
    requires 0 <= i < |ps|
    ensures ps[i].0 in ToH(ps) && Lookup(ps, ps[i].0) == ToH(ps)[ps[i].0]
  {
    assert KeysOf(ps)[i] == ps[i].0;
  }

  // ---------------------------------------------------------------------------
  // String#split
  // ---------------------------------------------------------------------------

  /** All fields of `s` between occurrences of `sep`, empty ones included (`s.split(sep, -1)`). */
  function Fields(s: string, sep: char): (fs: seq<string>)
    ensures |fs| >= 1
    ensures forall i :: 0 <= i < |fs| ==> sep !in fs[i]
  {
    if |s| == 0 then [""]
    else
      var rest := Fields(s[1..], sep);
      if s[0] == sep then [""] + rest
      else [[s[0]] + rest[0]] + rest[1..]
  }

  /** Joining the fields back with the separator gives the string again. */
  lemma {:induction false} JoinFields(s: string, sep: char)
    ensures Join(Fields(s, sep), [sep]) == s
  {
    if |s| > 0 {
      var rest := Fields(s[1..], sep);
      JoinFields(s[1..], sep);
      if s[0] == sep {
        assert Fields(s, sep) == [""] + rest;
        assert s == [s[0]] + s[1..];
      } else {
        var fs := Fields(s, sep);
        assert fs == [[s[0]] + rest[0]] + rest[1..];
        if |rest| == 1 {
          assert Join(rest, [sep]) == rest[0];
        } else {
          assert fs[1..] == rest[1..];
          assert Join(rest, [sep]) == rest[0] + [sep] + Join(rest[1..], [sep]);
        }
        assert s == [s[0]] + s[1..];
      }
    }
  }

  /** Removes the trailing empty fields, as `String#split` does without a limit. */
  function DropTrailingEmpty(fs: seq<string>): (r: seq<string>)
    ensures |r| <= |fs| && r == fs[..|r|]
    ensures |r| > 0 ==> r[|r| - 1] != ""
    ensures forall i :: |r| <= i < |fs| ==> fs[i] == ""
  {
    if |fs| == 0 then []
    else if fs[|fs| - 1] == "" then DropTrailingEmpty(fs[..|fs| - 1])
    else fs
  }

  /** `s.split(sep)` with a one-character string separator. */
  function Split(s: string, sep: char): (r: seq<string>)
    ensures |r| <= |Fields(s, sep)| && r == Fields(s, sep)[..|r|]
    ensures forall i :: 0 <= i < |r| ==> sep !in r[i]
    ensures |r| > 0 ==> r[|r| - 1] != ""
    ensures forall i :: |r| <= i < |Fields(s, sep)| ==> Fields(s, sep)[i] == ""
  {
    DropTrailingEmpty(Fields(s, sep))
  }

  /** A non-empty string without the separator splits into itself alone. */
  lemma SplitSingle(s: string, sep: char)
    requires s != [] && sep !in s
    ensures Split(s, sep) == [s]
  {
    assert Fields(s, sep) == [s] by {
      FieldsWithout(s, sep);
    }
  }

  lemma {:induction false} FieldsWithout(s: string, sep: char)
    requires sep !in s
    ensures Fields(s, sep) == [s]
  {
    if |s| > 0 {
      FieldsWithout(s[1..], sep);
      assert s == [s[0]] + s[1..];
    }
  }
}

=== FILE: utils.dfy ===
/**
 The configuration and vocabulary utilities of `Dry::Mutations::Utils`:
 the Truthy/Falsey word tests, the plain-hash key stringifier, the
 predicate-name tables between dry-validation and Mutations, the `Guards`
 translator and the `Type` hint.
 */
module Utils {
  import opened Ruby

  // ---------------------------------------------------------------------------
  // The FALSEY / TRUTHY regular expressions
  // ---------------------------------------------------------------------------

  const FALSEY_WORDS: seq<string> := ["0", "skip", "false", "falsey", "no", "n"]
  const TRUTHY_WORDS: seq<string> := ["1", "use", "true", "truthy", "yes", "y"]

  /** The regexp source of `FALSEY`/`TRUTHY`: `\A`, the words joined by `|` with no group around them, then `\z`. */
  function Source(words: seq<string>): (r: string) {
    "\\A" + Join(words, "|") + "\\z"
  }

  /** One alternative of a top-level alternation, with the anchors written inside it. */
  datatype Branch = Branch(atStart: bool, word: string, atEnd: bool)

  /** Reads one alternative: a leading `\A` and a trailing `\z` anchor it; the rest is literal text. */
  function ReadBranch(a: string): (r: Branch) {
    var atStart := |a| >= 2 && a[..2] == "\\A";
    var rest := if atStart then a[2..] else a;
    var atEnd := |rest| >= 2 && rest[|rest| - 2..] == "\\z";
    Branch(atStart, if atEnd then rest[..|rest| - 2] else rest, atEnd)
  }

  /** Reads a regexp source as a top-level alternation of literal alternatives. */
  function Alternatives(src: string): (r: seq<Branch>) {
    var alts := Fields(src, '|');
    seq(|alts|, i requires 0 <= i < |alts| => ReadBranch(alts[i]))
  }

  const FALSEY: seq<Branch> := Alternatives(Source(FALSEY_WORDS))
  const TRUTHY: seq<Branch> := Alternatives(Source(TRUTHY_WORDS))

  /** ASCII down-casing, the case folding of the `i` flag on these words. */
  function Lower(c: char): (r: char) {
    if 'A' <= c <= 'Z' then (c as int + 32) as char else c
  }

  function Fold(s: string): (t: string)
    ensures |t| == |s|
  {
    seq(|s|, i requires 0 <= i < |s| => Lower(s[i]))
  }

  /** Alternative `b` matches the folded text `t` at position `p`, honouring its anchors. */
  predicate MatchesAt(b: Branch, t: string, p: int) {
    && 0 <= p <= |t| - |b.word|
    && t[p..p + |b.word|] == Fold(b.word)
    && (b.atStart ==> p == 0)
    && (b.atEnd ==> p + |b.word| == |t|)
  }

  /** `s =~ rx` with the `i` flag: some alternative matches somewhere in `s`. */
  predicate Matches(rx: seq<Branch>, s: string) {
    exists i, p :: 0 <= i < |rx| && 0 <= p <= |s| && MatchesAt(rx[i], Fold(s), p)
  }

  /** `Utils.Falsey?(input, explicit:)`. */
  predicate Falsey(input: Value, explicit: bool) {
    if explicit then Matches(FALSEY, ToS(input)) else !Matches(TRUTHY, ToS(input))
  }

  /** `Utils.Truthy?(input, explicit:)`. */
  predicate Truthy(input: Value, explicit: bool) {
    if explicit then Matches(TRUTHY, ToS(input)) else !Matches(FALSEY, ToS(input))
  }

  // --- reading the source back ----------------------------------------------

  /** Words that `Regexp.union` leaves unescaped and that carry no upper-case letter. */
  predicate Plain(words: seq<string>) {
    forall i, j :: 0 <= i < |words| && 0 <= j < |words[i]| ==>
      words[i][j] != '|' && words[i][j] != '\\' && !('A' <= words[i][j] <= 'Z')
  }

  predicate StartsWith(t: string, w: string) {
    |w| <= |t| && t[..|w|] == w
  }

  predicate EndsWith(t: string, w: string) {
    |w| <= |t| && t[|t| - |w|..] == w
  }

  predicate OccursAt(t: string, w: string, p: int) {
    0 <= p <= |t| - |w| && t[p..p + |w|] == w
  }

  predicate Occurs(t: string, w: string) {
    exists p :: 0 <= p <= |t| && OccursAt(t, w, p)
  }

  lemma {:induction false} FieldsPrefix(a: string, t: string, sep: char)
    requires sep !in a
    ensures Fields(a + t, sep) == [a + Fields(t, sep)[0]] + Fields(t, sep)[1..]
  {
    if |a| == 0 {
      var f := Fields(t, sep);
      assert a + t == t;
      assert a + f[0] == f[0];
      assert f == [f[0]] + f[1..];
    } else {
      FieldsPrefix(a[1..], t, sep);
      assert (a + t)[1..] == a[1..] + t;
      assert (a + t)[0] == a[0];
      assert [a[0]] + (a[1..] + Fields(t, sep)[0]) == a + Fields(t, sep)[0];
    }
  }

  lemma {:induction false} FieldsSuffix(t: string, b: string, sep: char)
    requires sep !in b
    ensures Fields(t + b, sep) == AppendToLast(Fields(t, sep), b)
  {
    if |t| == 0 {
      FieldsSuffixEmpty(t, b, sep);
    } else {
      FieldsSuffix(t[1..], b, sep);
      FieldsSuffixStep(t, b, sep);
    }
  }

  lemma FieldsSuffixEmpty(t: string, b: string, sep: char)
    requires |t| == 0 && sep !in b
    ensures Fields(t + b, sep) == AppendToLast(Fields(t, sep), b)
  {
    assert t + b == b;
    FieldsWithout(b, sep);
    assert Fields(t, sep) == [""];
    assert "" + b == b;
  }

  /** One step of `FieldsSuffix`: a character in front keeps the appended text on the last field. */
  lemma FieldsSuffixStep(t: string, b: string, sep: char)
    requires |t| > 0
    requires Fields(t[1..] + b, sep) == AppendToLast(Fields(t[1..], sep), b)
    ensures Fields(t + b, sep) == AppendToLast(Fields(t, sep), b)
  {
    var c, u := t[0], t[1..];
    assert t == [c] + u;
    assert t + b == [c] + (u + b);
    var g := Fields(u, sep);
    FieldsCons(c, u, sep);
    FieldsCons(c, u + b, sep);
    if c == sep {
      AppendToLastCons([""], g, b);
    } else {
      AppendToLastFirst(c, g, b);
    }
  }

  /** The fields with `b` appended to the last one. */
  function AppendToLast(f: seq<string>, b: string): (r: seq<string>)
    requires |f| >= 1
    ensures |r| == |f| && r[|f| - 1] == f[|f| - 1] + b
    ensures forall i :: 0 <= i < |f| - 1 ==> r[i] == f[i]
  {
    f[..|f| - 1] + [f[|f| - 1] + b]
  }

  lemma AppendToLastCons(a: seq<string>, g: seq<string>, b: string)
    requires |g| >= 1
    ensures a + AppendToLast(g, b) == AppendToLast(a + g, b)
  {
    assert (a + g)[..|a + g| - 1] == a + g[..|g| - 1];
  }

  lemma AppendToLastFirst(c: char, g: seq<string>, b: string)
    requires |g| >= 1
    ensures [[c] + AppendToLast(g, b)[0]] + AppendToLast(g, b)[1..] == AppendToLast([[c] + g[0]] + g[1..], b)
  {
    if |g| == 1 {
      assert [c] + (g[0] + b) == ([c] + g[0]) + b;
    }
  }

  lemma FieldsCons(c: char, t: string, sep: char)
    ensures Fields([c] + t, sep) ==
      if c == sep then [""] + Fields(t, sep) else [[c] + Fields(t, sep)[0]] + Fields(t, sep)[1..]
  {
    assert ([c] + t)[1..] == t;
  }

  lemma {:induction false} FieldsOfJoin(ws: seq<string>, sep: char)
    requires |ws| >= 1
    requires forall i :: 0 <= i < |ws| ==> sep !in ws[i]
    ensures Fields(Join(ws, [sep]), sep) == ws
  {
    if |ws| == 1 {
      FieldsWithout(ws[0], sep);
    } else {
      var j := Join(ws[1..], [sep]);
      FieldsOfJoin(ws[1..], sep);
      FieldsAfterSep(j, sep);
      FieldsPrefix(ws[0], [sep] + j, sep);
      assert Join(ws, [sep]) == ws[0] + ([sep] + j);
      assert ws[0] + "" == ws[0];
      assert ws == [ws[0]] + ws[1..];
    }
  }

  lemma FieldsAfterSep(t: string, sep: char)
    ensures Fields([sep] + t, sep) == [""] + Fields(t, sep)
  {
    assert ([sep] + t)[1..] == t;
  }

  predicate NoBackslash(w: string) {
    forall k :: 0 <= k < |w| ==> w[k] != '\\'
  }

  lemma ReadMiddle(w: string)
    requires NoBackslash(w)
    ensures ReadBranch(w) == Branch(false, w, false)
  {
    if |w| >= 1 { assert w[0] != '\\'; }
    if |w| >= 2 { assert w[|w| - 2] != '\\'; }
  }

  lemma ReadFirst(w: string)
    requires NoBackslash(w)
    ensures ReadBranch("\\A" + w) == Branch(true, w, false)
  {
    assert ("\\A" + w)[..2] == "\\A";
    assert ("\\A" + w)[2..] == w;
    if |w| >= 2 { assert w[|w| - 2] != '\\'; }
  }

  lemma ReadLast(w: string)
    requires NoBackslash(w)
    ensures ReadBranch(w + "\\z") == Branch(false, w, true)
  {
    var a := w + "\\z";
    NoStartAnchor(w, "\\z");
    assert a[|a| - 2..] == "\\z";
    assert a[..|a| - 2] == w;
  }

  /** A string made of a backslash-free word and `\z` does not begin with `\A`. */
  lemma NoStartAnchor(w: string, z: string)
    requires NoBackslash(w) && z == "\\z"
    ensures !(|w + z| >= 2 && (w + z)[..2] == "\\A")
  {
    var a := w + z;
    var anchor := "\\A";
    assert anchor[0] == '\\' && anchor[1] == 'A';
    if |w| >= 1 {
      assert a[..2][0] == w[0] != '\\';
    } else {
      assert a[..2][1] == z[1] == 'z';
    }
  }

  lemma ReadOnly(w: string)
    requires NoBackslash(w)
    ensures ReadBranch("\\A" + w + "\\z") == Branch(true, w, true)
  {
    var a := "\\A" + w + "\\z";
    assert a[..2] == "\\A";
    var rest := a[2..];
    assert rest == w + "\\z";
    assert rest[|rest| - 2..] == "\\z";
    assert rest[..|rest| - 2] == w;
  }

  /** The fields of `\A#{union}\z` split at `|`: the words, the first prefixed by `\A`, the last suffixed by `\z`. */
  lemma FieldsOfSource(words: seq<string>)
    requires |words| >= 1
    requires forall i :: 0 <= i < |words| ==> '|' !in words[i]
    ensures var f := Fields(Source(words), '|');
      var n := |words|;
      && |f| == n
      && (n == 1 ==> f[0] == "\\A" + words[0] + "\\z")
      && (n > 1 ==> f[0] == "\\A" + words[0] && f[n - 1] == words[n - 1] + "\\z")
      && (forall i :: 0 < i < n - 1 ==> f[i] == words[i])
  {
    var n := |words|;
    SourceFields(words);
    var g := ["\\A" + words[0]] + words[1..];
    assert g[n - 1] == if n == 1 then "\\A" + words[0] else words[n - 1];
    assert n == 1 ==> ("\\A" + words[0]) + "\\z" == "\\A" + words[0] + "\\z";
  }

  /** The fields of the source, as a whole: the word fields, `\A` glued to the first and `\z` to the last. */
  lemma SourceFields(words: seq<string>)
    requires |words| >= 1
    requires forall i :: 0 <= i < |words| ==> '|' !in words[i]
    ensures Fields(Source(words), '|') == AppendToLast(["\\A" + words[0]] + words[1..], "\\z")
  {
    var j := Join(words, "|");
    FieldsOfJoin(words, '|');
    FieldsPrefix("\\A", j, '|');
    var f1 := Fields("\\A" + j, '|');
    assert f1 == ["\\A" + words[0]] + words[1..];
    FieldsSuffix("\\A" + j, "\\z", '|');
    assert Source(words) == ("\\A" + j) + "\\z";
  }

  /** The alternatives of `\A#{union}\z`: the words in order; `\A` binds to the first one only and `\z` to the last one only. */
  lemma AlternativesOfSource(words: seq<string>)
    requires |words| >= 1 && Plain(words)
    ensures |Alternatives(Source(words))| == |words|
    ensures forall i :: 0 <= i < |words| ==>
      Alternatives(Source(words))[i] == Branch(i == 0, words[i], i == |words| - 1)
  {
    var n := |words|;
    forall i | 0 <= i < n ensures '|' !in words[i] && NoBackslash(words[i]) {
      assert forall j :: 0 <= j < |words[i]| ==> words[i][j] != '|';
    }
    FieldsOfSource(words);
    var f := Fields(Source(words), '|');
    forall i | 0 <= i < n
      ensures ReadBranch(f[i]) == Branch(i == 0, words[i], i == n - 1)
    {
      if i == 0 && n == 1 {
        ReadOnly(words[i]);
      } else if i == 0 {
        ReadFirst(words[i]);
      } else if i == n - 1 {
        ReadLast(words[i]);
      } else {
        ReadMiddle(words[i]);
      }
    }
  }

  // --- what the two expressions accept ---------------------------------------

  lemma FoldPlain(w: string)
    requires forall k :: 0 <= k < |w| ==> !('A' <= w[k] <= 'Z')
    ensures Fold(w) == w
  {
  }

  /** The alternatives of an anchored word list read back as the words, each its own case folding. */
  lemma AnchoredBranches(words: seq<string>)
    requires |words| >= 1 && Plain(words)
    ensures var rx := Alternatives(Source(words));
      && |rx| == |words|
      && forall i :: 0 <= i < |words| ==>
        rx[i] == Branch(i == 0, words[i], i == |words| - 1) && Fold(words[i]) == words[i]
  {
    AlternativesOfSource(words);
    forall i | 0 <= i < |words| ensures Fold(words[i]) == words[i] {
      FoldPlain(words[i]);
    }
  }

  /** Alternative `i` of an anchored word list: the word itself, anchored where it stands, and its own case folding. */
  lemma AnchoredBranch(words: seq<string>, i: int)
    requires |words| >= 1 && Plain(words)
    requires 0 <= i < |words| || 0 <= i < |Alternatives(Source(words))|
    ensures |Alternatives(Source(words))| == |words|
    ensures Alternatives(Source(words))[i] == Branch(i == 0, words[i], i == |words| - 1)
    ensures Fold(words[i]) == words[i]
  {
    AnchoredBranches(words);
  }

  lemma AnchoredMatchOnly(words: seq<string>, s: string)
    requires |words| >= 2 && Plain(words)
    requires Matches(Alternatives(Source(words)), s)
    ensures || StartsWith(Fold(s), words[0])
            || (exists i :: 0 < i < |words| - 1 && Occurs(Fold(s), words[i]))
            || EndsWith(Fold(s), words[|words| - 1])
  {
    var n := |words|;
    var rx := Alternatives(Source(words));
    var t := Fold(s);
    var i, p :| 0 <= i < |rx| && 0 <= p <= |s| && MatchesAt(rx[i], t, p);
    AnchoredBranch(words, i);
    var w := words[i];
    assert t[p..p + |w|] == w;
    if i == 0 {
      assert p == 0;
      assert t[..|w|] == t[p..p + |w|];
      assert StartsWith(t, words[0]);
    } else if i == n - 1 {
      assert p == |t| - |w|;
      assert t[|t| - |w|..] == t[p..p + |w|];
      assert EndsWith(t, words[n - 1]);
    } else {
      assert OccursAt(t, w, p);
      assert 0 < i < n - 1 && Occurs(t, words[i]);
    }
  }

  lemma AnchoredMatchIf(words: seq<string>, s: string)
    requires |words| >= 2 && Plain(words)
    requires || StartsWith(Fold(s), words[0])
             || (exists i :: 0 < i < |words| - 1 && Occurs(Fold(s), words[i]))
             || EndsWith(Fold(s), words[|words| - 1])
    ensures Matches(Alternatives(Source(words)), s)
  {
    if StartsWith(Fold(s), words[0]) {
      MatchFirst(words, s);
    } else if EndsWith(Fold(s), words[|words| - 1]) {
      MatchLast(words, s);
    } else {
      var i :| 0 < i < |words| - 1 && Occurs(Fold(s), words[i]);
      MatchMiddle(words, s, i);
    }
  }

  lemma MatchFirst(words: seq<string>, s: string)
    requires |words| >= 2 && Plain(words) && StartsWith(Fold(s), words[0])
    ensures Matches(Alternatives(Source(words)), s)
  {
    var rx := Alternatives(Source(words));
    var t := Fold(s);
    AnchoredBranch(words, 0);
    assert t[0..|words[0]|] == t[..|words[0]|];
    assert MatchesAt(rx[0], t, 0);
  }

  lemma MatchLast(words: seq<string>, s: string)
    requires |words| >= 2 && Plain(words) && EndsWith(Fold(s), words[|words| - 1])
    ensures Matches(Alternatives(Source(words)), s)
  {
    var n := |words|;
    var rx := Alternatives(Source(words));
    var t := Fold(s);
    AnchoredBranch(words, n - 1);
    var p := |t| - |words[n - 1]|;
    assert MatchesAt(rx[n - 1], t, p);
  }

  lemma MatchMiddle(words: seq<string>, s: string, i: int)
    requires |words| >= 2 && Plain(words) && 0 < i < |words| - 1 && Occurs(Fold(s), words[i])
    ensures Matches(Alternatives(Source(words)), s)
  {
    var rx := Alternatives(Source(words));
    var t := Fold(s);
    AnchoredBranch(words, i);
    var p :| 0 <= p <= |t| && OccursAt(t, words[i], p);
    assert MatchesAt(rx[i], t, p);
  }

  /**
   With two or more words, `\A#{union}\z` matches exactly the strings whose
   folded text starts with the first word, contains one of the middle words,
   or ends with the last word.
   */
  lemma AnchoredMatch(words: seq<string>, s: string)
    requires |words| >= 2 && Plain(words)
    ensures Matches(Alternatives(Source(words)), s) <==>
      || StartsWith(Fold(s), words[0])
      || (exists i :: 0 < i < |words| - 1 && Occurs(Fold(s), words[i]))
      || EndsWith(Fold(s), words[|words| - 1])
  {
    if Matches(Alternatives(Source(words)), s) {
      AnchoredMatchOnly(words, s);
    } else if || StartsWith(Fold(s), words[0])
              || (exists i :: 0 < i < |words| - 1 && Occurs(Fold(s), words[i]))
              || EndsWith(Fold(s), words[|words| - 1]) {
      AnchoredMatchIf(words, s);
    }
  }

  lemma WordListsPlain()
    ensures Plain(FALSEY_WORDS) && Plain(TRUTHY_WORDS)
  {
  }

  /**
   FALSEY accepts a string iff, down-cased, it starts with `0`, contains
   `skip`, `false`, `falsey` or `no`, or ends with `n`.
   */
  lemma FalseyShape(s: string)
    ensures var t := Fold(s);
      Matches(FALSEY, s) <==>
        StartsWith(t, "0") || Occurs(t, "skip") || Occurs(t, "false") || Occurs(t, "falsey")
        || Occurs(t, "no") || EndsWith(t, "n")
  {
    var w := FALSEY_WORDS;
    WordListsPlain();
    AnchoredMatch(w, s);
    var t := Fold(s);
    assert (exists i :: 0 < i < |w| - 1 && Occurs(t, w[i])) <==>
      Occurs(t, w[1]) || Occurs(t, w[2]) || Occurs(t, w[3]) || Occurs(t, w[4]);
  }

  /**
   TRUTHY accepts a string iff, down-cased, it starts with `1`, contains
   `use`, `true`, `truthy` or `yes`, or ends with `y`.
   */
  lemma TruthyShape(s: string)
    ensures var t := Fold(s);
      Matches(TRUTHY, s) <==>
        StartsWith(t, "1") || Occurs(t, "use") || Occurs(t, "true") || Occurs(t, "truthy")
        || Occurs(t, "yes") || EndsWith(t, "y")
  {
    var w := TRUTHY_WORDS;
    WordListsPlain();
    AnchoredMatch(w, s);
    var t := Fold(s);
    assert (exists i :: 0 < i < |w| - 1 && Occurs(t, w[i])) <==>
      Occurs(t, w[1]) || Occurs(t, w[2]) || Occurs(t, w[3]) || Occurs(t, w[4]);
  }

  /** Each word of an anchored alternation is accepted in any letter case. */
  lemma WordAccepted(words: seq<string>, i: int, s: string)
    requires |words| >= 1 && Plain(words) && 0 <= i < |words|
    requires Fold(s) == words[i]
    ensures Matches(Alternatives(Source(words)), s)
  {
    AlternativesOfSource(words);
    var rx := Alternatives(Source(words));
    FoldPlain(words[i]);
    assert Fold(s)[0..|words[i]|] == Fold(s);
    assert MatchesAt(rx[i], Fold(s), 0);
  }

  /** Every listed word, in any letter case, is explicitly falsey or truthy respectively. */
  lemma ListedWordsAccepted(s: string)
    ensures Fold(s) in FALSEY_WORDS ==> Falsey(Str(s), true)
    ensures Fold(s) in TRUTHY_WORDS ==> Truthy(Str(s), true)
  {
    WordListsPlain();
    if Fold(s) in FALSEY_WORDS {
      var i :| 0 <= i < |FALSEY_WORDS| && FALSEY_WORDS[i] == Fold(s);
      WordAccepted(FALSEY_WORDS, i, s);
    }
    if Fold(s) in TRUTHY_WORDS {
      var i :| 0 <= i < |TRUTHY_WORDS| && TRUTHY_WORDS[i] == Fold(s);
      WordAccepted(TRUTHY_WORDS, i, s);
    }
  }

  /**
   `nil` (whose `to_s` is empty) is neither explicitly truthy nor explicitly
   falsey, so in the non-explicit mode it is both.
   */
  lemma NilIsNeither()
    ensures !Falsey(Nil, true) && !Truthy(Nil, true)
    ensures Falsey(Nil, false) && Truthy(Nil, false)
  {
    FalseyShape("");
    TruthyShape("");
    assert Fold("") == "";
  }

  /** The non-explicit mode is the complement of the opposite expression. */
  lemma ImplicitIsComplement(input: Value)
    ensures Falsey(input, false) <==> !Truthy(input, true)
    ensures Truthy(input, false) <==> !Falsey(input, true)
  {
  }

  /**
   The missing group lets a listed falsey word read as truthy and an ordinary
   word read as falsey: `falsey` ends with `y`, `on` ends with `n`.
   */
  lemma FalseyReadsAsTruthy()
    ensures Falsey(Str("falsey"), true) && Truthy(Str("falsey"), true)
    ensures !Falsey(Str("falsey"), false)
    ensures Falsey(Str("on"), true) && !Truthy(Str("on"), false)
  {
    FalseyIsTruthy();
    OnIsFalsey();
  }

  lemma FalseyIsTruthy()
    ensures Matches(FALSEY, "falsey") && Matches(TRUTHY, "falsey")
  {
    FoldPlain("falsey");
    assert Matches(FALSEY, "falsey") by {
      FalseyShape("falsey");
      assert OccursAt("falsey", "false", 0);
    }
    assert Matches(TRUTHY, "falsey") by {
      TruthyShape("falsey");
      assert "falsey"[|"falsey"| - 1..] == "y";
    }
  }

  lemma OnIsFalsey()
    ensures Matches(FALSEY, "on")
  {
    FoldPlain("on");
    FalseyShape("on");
    assert "on"[|"on"| - 1..] == "n";
  }

  /** Whole-word reading, as `\A(?:#{union})\z` would give: the folded input is one of the words. */
  predicate WholeWord(words: seq<string>, s: string) {
    Fold(s) in words
  }

  /** `Falsey?` with the alternation grouped. */
  predicate FalseyIntended(input: Value, explicit: bool) {
    if explicit then WholeWord(FALSEY_WORDS, ToS(input)) else !WholeWord(TRUTHY_WORDS, ToS(input))
  }

  /** `Truthy?` with the alternation grouped. */
  predicate TruthyIntended(input: Value, explicit: bool) {
    if explicit then WholeWord(TRUTHY_WORDS, ToS(input)) else !WholeWord(FALSEY_WORDS, ToS(input))
  }

  /**
   With the group, no input is both explicitly truthy and explicitly falsey,
   each explicit answer implies the non-explicit one, and every whole-word
   answer is one the shipped expressions give too.
   */
  lemma IntendedIsConsistent(input: Value)
    ensures !(FalseyIntended(input, true) && TruthyIntended(input, true))
    ensures FalseyIntended(input, true) ==> FalseyIntended(input, false)
    ensures TruthyIntended(input, true) ==> TruthyIntended(input, false)
    ensures FalseyIntended(input, true) ==> Falsey(input, true)
    ensures TruthyIntended(input, true) ==> Truthy(input, true)
  {
    ListedWordsAccepted(ToS(input));
    WordListsDisjoint(Fold(ToS(input)));
  }

  lemma WordListsDisjoint(w: string)
    ensures !(w in FALSEY_WORDS && w in TRUTHY_WORDS)
  {
    if w in FALSEY_WORDS {
      assert w == "0" || w == "skip" || w == "false" || w == "falsey" || w == "no" || w == "n";
      assert w[0] in "0sfn";
    }
  }

  // ---------------------------------------------------------------------------
  // Utils.Hash, plain-hash backend
  // ---------------------------------------------------------------------------

  /** Pair `i` is the last one whose key has its string form. */
  ghost predicate LastByName<V>(h: seq<(Key, V)>, i: int)
    requires 0 <= i < |h|
  {
    forall j :: i < j < |h| ==> h[j].0.ToS() != h[i].0.ToS()
  }

  /**
   `Utils.Hash` when neither Hashie::Mash nor `with_indifferent_access` is
   available: a new hash with each key replaced by its string form. Every
   output key is the `to_s` of an input key, every input value is kept, and
   of two keys with the same string form the later one's value wins.
   */
  function Hash<V>(h: seq<(Key, V)>): (r: map<string, V>)
    ensures forall i :: 0 <= i < |h| ==> h[i].0.ToS() in r
    ensures forall s :: s in r ==> exists i :: 0 <= i < |h| && h[i].0.ToS() == s
    ensures forall i :: 0 <= i < |h| && LastByName(h, i) ==> r[h[i].0.ToS()] == h[i].1
  {
    var ps := Stringified(h);
    assert forall s :: s in KeysOf(ps) ==> exists i :: 0 <= i < |h| && KeysOf(ps)[i] == s;
    assert forall i :: 0 <= i < |h| && LastByName(h, i) ==> LastOf(ps, i);
    ToH(ps)
  }

  function Stringified<V>(h: seq<(Key, V)>): (ps: seq<(string, V)>)
    ensures |ps| == |h|
    ensures forall i :: 0 <= i < |h| ==> ps[i] == (h[i].0.ToS(), h[i].1)
  {
    seq(|h|, i requires 0 <= i < |h| => (h[i].0.ToS(), h[i].1))
  }

  /** A symbol key and a string key with the same name collide; the later entry wins. */
  lemma HashCollision(a: Value, b: Value)
    ensures Hash([(KSym("a"), a), (KStr("a"), b)]) == map["a" := b]
  {
    var r := Hash([(KSym("a"), a), (KStr("a"), b)]);
    assert forall s :: s in r ==> s == "a";
  }

  // ---------------------------------------------------------------------------
  // The predicate-name tables
  // ---------------------------------------------------------------------------

  /** `DRY_TO_MUTATIONS`, in the order it is written. */
  const DRY_TO_MUTATIONS_PAIRS: seq<(string, string)> := [
    ("min_size?", "min_length"),
    ("max_size?", "max_length"),
    ("format?", "matches"),
    ("inclusion?", "in"),
    ("included_in?", "in"),
    ("gteq?", "min"),
    ("lteq?", "max")
  ]

  /** The hash `DRY_TO_MUTATIONS` (its keys are distinct, so it is `DRY_TO_MUTATIONS_PAIRS.to_h`). */
  const DRY_TO_MUTATIONS: map<string, string> := map[
    "min_size?" := "min_length", "max_size?" := "max_length", "format?" := "matches",
    "inclusion?" := "in", "included_in?" := "in", "gteq?" := "min", "lteq?" := "max"]

  /** Swaps each pair; `Invert(ps)` is `ps.to_h.invert` when the keys of `ps` are distinct. */
  function Swap<K, V>(ps: seq<(K, V)>): (r: seq<(V, K)>)
    ensures |r| == |ps|
    ensures forall i :: 0 <= i < |ps| ==> r[i] == (ps[i].1, ps[i].0)
  {
    seq(|ps|, i requires 0 <= i < |ps| => (ps[i].1, ps[i].0))
  }

  /** `Hash#invert`: each value becomes a key; of two entries with the same value the later one wins. */
  function Invert<K, V(==,!new)>(ps: seq<(K, V)>): (r: map<V, K>) {
    ToH(Swap(ps))
  }

  /**
   `DRY_TO_MUTATIONS.invert`, written out; `MutationsTableIsInvert` proves it
   equal to `Invert(DRY_TO_MUTATIONS_PAIRS)`.
   */
  const MUTATIONS_TO_DRY: map<string, string> := map[
    "min_length" := "min_size?", "max_length" := "max_size?", "matches" := "format?",
    "in" := "included_in?", "min" := "gteq?", "max" := "lteq?"]

  ghost predicate DistinctKeys<K, V>(ps: seq<(K, V)>) {
    forall a, b :: 0 <= a < b < |ps| ==> ps[a].0 != ps[b].0
  }

  /**
   Inverting a hash and looking the result up again: every value is a key of
   the inverse, going there and back returns the value, and the inverse sends
   a value back to the key it came from iff no later key has the same value.
   */
  lemma {:induction false} InvertRoundTrip<K(!new), V(!new)>(ps: seq<(K, V)>, i: int)
    requires DistinctKeys(ps) && 0 <= i < |ps|
    ensures ps[i].1 in Invert(ps)
    ensures Invert(ps)[ps[i].1] in ToH(ps) && ToH(ps)[Invert(ps)[ps[i].1]] == ps[i].1
    ensures Invert(ps)[ps[i].1] == ps[i].0 <==> forall j :: i < j < |ps| ==> ps[j].1 != ps[i].1
  {
    var sw := Swap(ps);
    var v := ps[i].1;
    assert sw[i].0 == v && KeysOf(sw)[i] == v;
    var l := LastIndex(sw, v);
    assert Invert(ps)[v] == ps[l].0;
    assert KeysOf(ps)[l] == ps[l].0;
    assert LastOf(ps, l);
    if forall j :: i < j < |ps| ==> ps[j].1 != v {
      assert LastOf(sw, i);
    } else {
      var j :| i < j < |ps| && ps[j].1 == v;
      assert sw[j].0 == v;
      assert l >= j;
    }
  }

  /** The hash literal is the `to_h` of its entries in order: no key repeats. */
  lemma DryTableIsHashLiteral()
    ensures DRY_TO_MUTATIONS == ToH(DRY_TO_MUTATIONS_PAIRS)
  {
    assert KeysOf(DRY_TO_MUTATIONS_PAIRS) ==
      ["min_size?", "max_size?", "format?", "inclusion?", "included_in?", "gteq?", "lteq?"];
    ToHIs(DRY_TO_MUTATIONS_PAIRS, DRY_TO_MUTATIONS);
  }

  /**
   `MUTATIONS_TO_DRY` is the inverted table. It has six entries, not seven:
   `inclusion?` and `included_in?` both map to `in`, and the later
   `included_in?` wins.
   */
  lemma MutationsTableIsInvert()
    ensures MUTATIONS_TO_DRY == Invert(DRY_TO_MUTATIONS_PAIRS)
  {
    var s := Swap(DRY_TO_MUTATIONS_PAIRS);
    assert s == [
      ("min_length", "min_size?"), ("max_length", "max_size?"), ("matches", "format?"),
      ("in", "inclusion?"), ("in", "included_in?"), ("min", "gteq?"), ("max", "lteq?")];
    assert KeysOf(s) == ["min_length", "max_length", "matches", "in", "in", "min", "max"];
    assert !LastOf(s, 3) by { assert s[4].0 == s[3].0; }
    ToHIs(s, MUTATIONS_TO_DRY);
  }

  /** mutations→dry→mutations is the identity on all six Mutations names. */
  lemma MutationsRoundTrip()
    ensures forall m :: m in MUTATIONS_TO_DRY ==>
      MUTATIONS_TO_DRY[m] in DRY_TO_MUTATIONS && DRY_TO_MUTATIONS[MUTATIONS_TO_DRY[m]] == m
  {
  }

  lemma MutationsBack(m: string)
    requires m in MUTATIONS_TO_DRY
    ensures MUTATIONS_TO_DRY[m] in DRY_TO_MUTATIONS && DRY_TO_MUTATIONS[MUTATIONS_TO_DRY[m]] == m
  {
    MutationsRoundTrip();
  }

  /** dry→mutations→dry is the identity on every dry name except the deprecated `inclusion?`. */
  lemma DryRoundTrip()
    ensures forall d :: d in DRY_TO_MUTATIONS ==>
      DRY_TO_MUTATIONS[d] in MUTATIONS_TO_DRY && (MUTATIONS_TO_DRY[DRY_TO_MUTATIONS[d]] == d <==> d != "inclusion?")
  {
  }

  // ---------------------------------------------------------------------------
  // Guards
  // ---------------------------------------------------------------------------

  /** A positional argument of `Guards`: one predicate name, or an array of them. */
  datatype KeyArg = One(name: string) | Many(names: seq<string>)

  /** The positional names with any arrays among them spliced in. */
  function Flatten(keys: seq<KeyArg>): (ks: seq<string>)
    ensures forall k :: k in ks <==> exists i :: 0 <= i < |keys| && k in Names(keys[i])
  {
    if |keys| == 0 then [] else Names(keys[0]) + Flatten(keys[1..])
  }

  function Names(a: KeyArg): (r: seq<string>) {
    match a
    case One(n) => [n]
    case Many(ns) => ns
  }

  /** The names `Guards` translates: the positional ones flattened, or else every key of `params`. */
  function GuardKeys(keys: seq<KeyArg>, params: seq<(string, Value)>): (r: seq<string>) {
    Flatten(if |keys| == 0 then [Many(KeysOf(params))] else keys)
  }

  /** Without positional names, the names translated are the keys of `params`, in order. */
  lemma DefaultKeys(params: seq<(string, Value)>)
    ensures GuardKeys([], params) == KeysOf(params)
  {
    var one := [Many(KeysOf(params))];
    assert one[1..] == [];
    assert Flatten(one) == Names(one[0]) + Flatten([]);
  }

  /** The `Mutations` `empty` guard short-circuits everything else. */
  predicate EmptyGuard(params: seq<(string, Value)>) {
    |params| == 0 || RTest(Lookup(params, "empty"))
  }

  /** The `detect` step: the first table sharing a key with `ks`, dry-validation's names first. */
  function Detect(ks: seq<string>): (r: Option<map<string, string>>)
    ensures (exists k :: k in ks && k in DRY_TO_MUTATIONS) ==> r == Some(DRY_TO_MUTATIONS)
    ensures r.None? <==> forall k :: k in ks ==> k !in DRY_TO_MUTATIONS && k !in MUTATIONS_TO_DRY
  {
    if exists k :: k in ks && k in DRY_TO_MUTATIONS then Some(DRY_TO_MUTATIONS)
    else if exists k :: k in ks && k in MUTATIONS_TO_DRY then Some(MUTATIONS_TO_DRY)
    else None
  }

  function Get(table: map<string, string>, k: string): (r: Option<string>) {
    if k in table then Some(table[k]) else None
  }

  /** The position of the last name in `ks` that `table` sends to `t`, or -1 when there is none. */
  function LastSentTo(table: map<string, string>, ks: seq<string>, t: string): (r: int)
    ensures -1 <= r < |ks|
    ensures r >= 0 ==> ks[r] in table && table[ks[r]] == t
    ensures forall j :: r < j < |ks| ==> ks[j] !in table || table[ks[j]] != t
  {
    if |ks| == 0 then -1
    else
      var n := |ks| - 1;
      if ks[n] in table && table[ks[n]] == t then n
      else LastSentTo(table, ks[..n], t)
  }

  /**
   `out` is the translation of `params` through `table` for the names `ks`:
   its keys are the targets of the names the table knows (the others are
   dropped), and each target carries the parameter of the last name sent to it.
   */
  ghost predicate TranslatedBy(table: map<string, string>, ks: seq<string>, params: seq<(string, Value)>, out: map<string, Value>) {
    && (forall t :: t in out <==> exists i :: 0 <= i < |ks| && ks[i] in table && table[ks[i]] == t)
    && (forall t :: t in out ==> LastSentTo(table, ks, t) >= 0 && out[t] == Lookup(params, ks[LastSentTo(table, ks, t)]))
  }

  /**
   The translation step of `Guards`: each name is paired with its target in
   `table` (none for an unknown name) and its parameter, the pairs become a
   hash, and the entry of the unknown names is deleted.
   */
  function Translate(table: map<string, string>, ks: seq<string>, params: seq<(string, Value)>): (r: map<string, Value>)
    ensures TranslatedBy(table, ks, params, r)
  {
    var zipped := Zipped(table, ks, params);
    var h := ToH(zipped);
    var r := map o | o in h && o.Some? :: o.value := h[o];
    forall t ensures t in r <==> exists i :: 0 <= i < |ks| && ks[i] in table && table[ks[i]] == t {
      ZippedKeys(table, ks, params, t);
    }
    forall t | t in r ensures LastSentTo(table, ks, t) >= 0 && r[t] == Lookup(params, ks[LastSentTo(table, ks, t)]) {
      ZippedLast(table, ks, params, t);
    }
    r
  }

  /** A target is a key of the zipped hash exactly when some name is sent to it. */
  lemma ZippedKeys(table: map<string, string>, ks: seq<string>, params: seq<(string, Value)>, t: string)
    ensures Some(t) in ToH(Zipped(table, ks, params)) <==> exists i :: 0 <= i < |ks| && ks[i] in table && table[ks[i]] == t
  {
    var zipped := Zipped(table, ks, params);
    if Some(t) in ToH(zipped) {
      var i :| 0 <= i < |ks| && KeysOf(zipped)[i] == Some(t);
      assert ks[i] in table && table[ks[i]] == t;
    }
    if exists i :: 0 <= i < |ks| && ks[i] in table && table[ks[i]] == t {
      var i :| 0 <= i < |ks| && ks[i] in table && table[ks[i]] == t;
      assert KeysOf(zipped)[i] == Some(t);
    }
  }

  /** The zipped hash holds, under a target, the parameter of the last name sent to it. */
  lemma ZippedLast(table: map<string, string>, ks: seq<string>, params: seq<(string, Value)>, t: string)
    requires Some(t) in ToH(Zipped(table, ks, params))
    ensures LastSentTo(table, ks, t) >= 0
    ensures ToH(Zipped(table, ks, params))[Some(t)] == Lookup(params, ks[LastSentTo(table, ks, t)])
  {
    var zipped := Zipped(table, ks, params);
    var l := LastSentTo(table, ks, t);
    var i :| 0 <= i < |ks| && KeysOf(zipped)[i] == Some(t);
    assert l >= i;
    assert LastOf(zipped, l);
  }

  function Zipped(table: map<string, string>, ks: seq<string>, params: seq<(string, Value)>): (z: seq<(Option<string>, Value)>)
    ensures |z| == |ks|
    ensures forall i :: 0 <= i < |ks| ==> z[i] == (Get(table, ks[i]), Lookup(params, ks[i]))
  {
    seq(|ks|, i requires 0 <= i < |ks| => (Get(table, ks[i]), Lookup(params, ks[i])))
  }

  /** `NoMethodError` on `nil.values_at`: no name belongs to either vocabulary. */
  datatype GuardsError = NoVocabulary

  /**
   `Utils.Guards(*keys, **params)`: translates guard parameters between the
   two vocabularies. Empty parameters or a truthy `empty:` give the empty
   hash at once; otherwise the names are translated through the table they
   belong to, and a call whose names belong to neither fails.
   */
  function Guards(keys: seq<KeyArg>, params: seq<(string, Value)>): (r: Result<map<string, Value>, GuardsError>)
    ensures EmptyGuard(params) ==> r == Success(map[])
    ensures !EmptyGuard(params) ==>
      (r.Failure? <==> forall k :: k in GuardKeys(keys, params) ==> k !in DRY_TO_MUTATIONS && k !in MUTATIONS_TO_DRY)
    ensures !EmptyGuard(params) && r.Success? ==>
      var ks := GuardKeys(keys, params);
      var table := if exists k :: k in ks && k in DRY_TO_MUTATIONS then DRY_TO_MUTATIONS else MUTATIONS_TO_DRY;
      TranslatedBy(table, ks, params, r.value)
  {
    if EmptyGuard(params) then Success(map[])
    else
      var ks := GuardKeys(keys, params);
      match Detect(ks)
      case None => Failure(NoVocabulary)
      case Some(table) => Success(Translate(table, ks, params))
  }

  /** The value under a name's target, when every later name sent there is the same name. */
  lemma LastValue(table: map<string, string>, ks: seq<string>, params: seq<(string, Value)>, out: map<string, Value>, i: int)
    requires TranslatedBy(table, ks, params, out)
    requires 0 <= i < |ks| && ks[i] in table
    requires forall j :: i < j < |ks| && ks[j] in table && table[ks[j]] == table[ks[i]] ==> ks[j] == ks[i]
    ensures table[ks[i]] in out && out[table[ks[i]]] == Lookup(params, ks[i])
  {
    var t := table[ks[i]];
    assert t in out by {
      assert 0 <= i < |ks| && ks[i] in table && table[ks[i]] == t;
    }
    var l := LastSentTo(table, ks, t);
    assert i <= l;
    if i < l {
      assert ks[l] in table && table[ks[l]] == table[ks[i]];
    }
  }

  /** Under a table that sends different known names to different targets, every known name's parameter arrives. */
  lemma TranslateInjective(table: map<string, string>, ks: seq<string>, params: seq<(string, Value)>, out: map<string, Value>)
    requires TranslatedBy(table, ks, params, out)
    requires forall i, j :: 0 <= i < |ks| && 0 <= j < |ks| && ks[i] in table && ks[j] in table && table[ks[i]] == table[ks[j]] ==> ks[i] == ks[j]
    ensures forall i :: 0 <= i < |ks| && ks[i] in table ==> out[table[ks[i]]] == Lookup(params, ks[i])
  {
    forall i | 0 <= i < |ks| && ks[i] in table
      ensures out[table[ks[i]]] == Lookup(params, ks[i])
    {
      LastValue(table, ks, params, out, i);
    }
  }

  /** Apart from the deprecated `inclusion?`, different dry-validation names have different Mutations names. */
  lemma DryInjective(a: string, b: string)
    requires a in DRY_TO_MUTATIONS && b in DRY_TO_MUTATIONS && a != "inclusion?" && b != "inclusion?"
    requires DRY_TO_MUTATIONS[a] == DRY_TO_MUTATIONS[b]
    ensures a == b
  {
    DryRoundTrip();
    assert MUTATIONS_TO_DRY[DRY_TO_MUTATIONS[a]] == a;
  }

  /** No name belongs to both vocabularies, and the inverted table never yields the deprecated `inclusion?`. */
  lemma VocabulariesDisjoint()
    ensures forall k :: k in MUTATIONS_TO_DRY ==> k !in DRY_TO_MUTATIONS
    ensures forall k :: k in MUTATIONS_TO_DRY ==> MUTATIONS_TO_DRY[k] in DRY_TO_MUTATIONS && MUTATIONS_TO_DRY[k] != "inclusion?"
  {
  }

  /** Parameters that name no `empty` guard do not short-circuit. */
  lemma NoEmptyGuard(params: seq<(string, Value)>)
    requires |params| > 0 && "empty" !in KeysOf(params)
    ensures !EmptyGuard(params)
  {
  }

  /** When no name is dry-validation's and one is Mutations', the inverted table is used. */
  lemma GuardsByMutations(keys: seq<KeyArg>, params: seq<(string, Value)>, k: string)
    requires !EmptyGuard(params) && k in GuardKeys(keys, params) && k in MUTATIONS_TO_DRY
    requires forall n :: n in GuardKeys(keys, params) ==> n !in DRY_TO_MUTATIONS
    ensures Guards(keys, params) == Success(Translate(MUTATIONS_TO_DRY, GuardKeys(keys, params), params))
  {
    var ks := GuardKeys(keys, params);
    assert !exists n :: n in ks && n in DRY_TO_MUTATIONS;
    assert Detect(ks) == Some(MUTATIONS_TO_DRY);
  }

  /**
   Translating all of `params`, each of whose names the table knows, through
   a table that keeps them apart: one entry per name, carrying its value.
   */
  lemma RenamedAll(table: map<string, string>, params: seq<(string, Value)>, out: map<string, Value>)
    requires TranslatedBy(table, KeysOf(params), params, out)
    requires forall i :: 0 <= i < |params| ==> params[i].0 in table
    requires forall i, j :: 0 <= i < |params| && 0 <= j < |params| && table[params[i].0] == table[params[j].0] ==>
      params[i].0 == params[j].0
    ensures forall t :: t in out <==> exists i :: 0 <= i < |params| && table[params[i].0] == t
    ensures forall i :: 0 <= i < |params| ==> out[table[params[i].0]] == Lookup(params, params[i].0)
  {
    var ks := KeysOf(params);
    forall i, j | 0 <= i < |ks| && 0 <= j < |ks| && ks[i] in table && ks[j] in table && table[ks[i]] == table[ks[j]]
      ensures ks[i] == ks[j]
    {
      assert table[params[i].0] == table[params[j].0];
    }
    TranslateInjective(table, ks, params, out);
    forall t | t in out ensures exists i :: 0 <= i < |params| && table[params[i].0] == t {
      var i :| 0 <= i < |ks| && ks[i] in table && table[ks[i]] == t;
      assert table[params[i].0] == t;
    }
    forall i | 0 <= i < |params| ensures table[params[i].0] in out {
      assert ks[i] in table && table[ks[i]] == table[params[i].0];
    }
  }

  /** Guards on Mutations-named parameters translates them to dry-validation names, one for one. */
  lemma GuardsFromMutations(params: seq<(string, Value)>)
    requires |params| > 0 && DistinctKeys(params)
    requires forall i :: 0 <= i < |params| ==> params[i].0 in MUTATIONS_TO_DRY
    ensures Guards([], params).Success?
    ensures var out := Guards([], params).value;
      && (forall t :: t in out <==> exists i :: 0 <= i < |params| && MUTATIONS_TO_DRY[params[i].0] == t)
      && (forall i :: 0 <= i < |params| ==> out[MUTATIONS_TO_DRY[params[i].0]] == Lookup(params, params[i].0))
  {
    var ks := KeysOf(params);
    DefaultKeys(params);
    assert "empty" !in ks by {
      forall i | 0 <= i < |ks| ensures ks[i] != "empty" {
        assert ks[i] in MUTATIONS_TO_DRY;
      }
    }
    NoEmptyGuard(params);
    assert forall n :: n in ks ==> n !in DRY_TO_MUTATIONS by {
      VocabulariesDisjoint();
    }
    assert ks[0] in MUTATIONS_TO_DRY;
    GuardsByMutations([], params, ks[0]);
    forall i, j | 0 <= i < |params| && 0 <= j < |params| && MUTATIONS_TO_DRY[params[i].0] == MUTATIONS_TO_DRY[params[j].0]
      ensures params[i].0 == params[j].0
    {
      MutationsBack(params[i].0);
      MutationsBack(params[j].0);
    }
    RenamedAll(MUTATIONS_TO_DRY, params, Translate(MUTATIONS_TO_DRY, ks, params));
  }

  /** Guards on dry-validation names other than `inclusion?` translates them to Mutations names, one for one. */
  lemma GuardsFromDry(params: seq<(string, Value)>)
    requires |params| > 0 && DistinctKeys(params)
    requires forall i :: 0 <= i < |params| ==> params[i].0 in DRY_TO_MUTATIONS && params[i].0 != "inclusion?"
    ensures Guards([], params).Success?
    ensures var out := Guards([], params).value;
      && (forall t :: t in out <==> exists i :: 0 <= i < |params| && DRY_TO_MUTATIONS[params[i].0] == t)
      && (forall i :: 0 <= i < |params| ==> out[DRY_TO_MUTATIONS[params[i].0]] == Lookup(params, params[i].0))
  {
    var ks := KeysOf(params);
    DefaultKeys(params);
    assert "empty" !in ks by {
      forall i | 0 <= i < |ks| ensures ks[i] != "empty" {
        assert ks[i] in DRY_TO_MUTATIONS;
      }
    }
    NoEmptyGuard(params);
    assert ks[0] in DRY_TO_MUTATIONS;
    GuardsByDry([], params, ks[0]);
    forall i, j | 0 <= i < |params| && 0 <= j < |params| && DRY_TO_MUTATIONS[params[i].0] == DRY_TO_MUTATIONS[params[j].0]
      ensures params[i].0 == params[j].0
    {
      DryInjective(params[i].0, params[j].0);
    }
    RenamedAll(DRY_TO_MUTATIONS, params, Translate(DRY_TO_MUTATIONS, ks, params));
  }

  /**
   Translating Mutations-named guards to dry-validation names and passing the
   result back in (`**out`, in any order) gives the original guards again.
   */
  lemma GuardsRoundTrip(params: seq<(string, Value)>, back: seq<(string, Value)>)
    requires |params| > 0 && DistinctKeys(params)
    requires forall i :: 0 <= i < |params| ==> params[i].0 in MUTATIONS_TO_DRY
    requires Guards([], params).Success? && ToH(back) == Guards([], params).value
    requires DistinctKeys(back)
    ensures Guards([], back) == Success(ToH(params))
  {
    GuardsFromMutations(params);
    var mid := Guards([], params).value;
    BackIsDry(params, back, mid);
    GuardsFromDry(back);
    MutationsRoundTrip();
    RenamedBack(MUTATIONS_TO_DRY, DRY_TO_MUTATIONS, params, back, mid, Guards([], back).value);
  }

  /** Every key of the translated hash is a dry-validation name other than `inclusion?`. */
  lemma BackIsDry(params: seq<(string, Value)>, back: seq<(string, Value)>, mid: map<string, Value>)
    requires |params| > 0
    requires forall i :: 0 <= i < |params| ==> params[i].0 in MUTATIONS_TO_DRY
    requires forall t :: t in mid <==> exists i :: 0 <= i < |params| && MUTATIONS_TO_DRY[params[i].0] == t
    requires ToH(back) == mid
    ensures |back| > 0
    ensures forall i :: 0 <= i < |back| ==> back[i].0 in DRY_TO_MUTATIONS && back[i].0 != "inclusion?"
  {
    VocabulariesDisjoint();
    assert MUTATIONS_TO_DRY[params[0].0] in mid;
    forall i | 0 <= i < |back| ensures back[i].0 in DRY_TO_MUTATIONS && back[i].0 != "inclusion?" {
      assert KeysOf(back)[i] == back[i].0;
      assert back[i].0 in mid;
    }
  }

  /**
   Sending the translated hash back through a table that undoes `there`
   lands on the original guards.
   */
  lemma RenamedBack(there: map<string, string>, home: map<string, string>,
                    params: seq<(string, Value)>, back: seq<(string, Value)>, mid: map<string, Value>, out: map<string, Value>)
    requires forall m :: m in there ==> there[m] in home && home[there[m]] == m
    requires forall i :: 0 <= i < |params| ==> params[i].0 in there
    requires forall t :: t in mid ==> exists i :: 0 <= i < |params| && there[params[i].0] == t
    requires forall i :: 0 <= i < |params| ==>
      there[params[i].0] in mid && mid[there[params[i].0]] == Lookup(params, params[i].0)
    requires ToH(back) == mid
    requires forall i :: 0 <= i < |back| ==> back[i].0 in home
    requires forall t :: t in out <==> exists i :: 0 <= i < |back| && home[back[i].0] == t
    requires forall i :: 0 <= i < |back| ==> out[home[back[i].0]] == Lookup(back, back[i].0)
    ensures out == ToH(params)
  {
    var want := ToH(params);
    forall k | k in out ensures k in want && out[k] == want[k] {
      var i :| 0 <= i < |back| && home[back[i].0] == k;
      RenamedBackAt(there, home, params, back, mid, i);
    }
    forall k | k in want ensures k in out {
      RenamedBackFrom(there, home, params, back, mid, k);
    }
    SameEntries(out, want);
  }

  /** The name a translated entry comes back as is an original name, with its original value. */
  lemma RenamedBackAt(there: map<string, string>, home: map<string, string>,
                      params: seq<(string, Value)>, back: seq<(string, Value)>, mid: map<string, Value>, i: int)
    requires forall m :: m in there ==> there[m] in home && home[there[m]] == m
    requires forall i :: 0 <= i < |params| ==> params[i].0 in there
    requires forall t :: t in mid ==> exists i :: 0 <= i < |params| && there[params[i].0] == t
    requires forall i :: 0 <= i < |params| ==>
      there[params[i].0] in mid && mid[there[params[i].0]] == Lookup(params, params[i].0)
    requires ToH(back) == mid
    requires 0 <= i < |back| && back[i].0 in home
    ensures var k := home[back[i].0];
      k in ToH(params) && Lookup(back, back[i].0) == ToH(params)[k]
  {
    LookupPresent(back, i);
    var j :| 0 <= j < |params| && there[params[j].0] == back[i].0;
    LookupPresent(params, j);
  }

  /** Every original name is what some translated entry comes back as. */
  lemma RenamedBackFrom(there: map<string, string>, home: map<string, string>,
                        params: seq<(string, Value)>, back: seq<(string, Value)>, mid: map<string, Value>, k: string)
    requires forall m :: m in there ==> there[m] in home && home[there[m]] == m
    requires forall i :: 0 <= i < |params| ==> params[i].0 in there
    requires forall i :: 0 <= i < |params| ==> there[params[i].0] in mid
    requires ToH(back) == mid
    requires k in ToH(params)
    ensures exists i :: 0 <= i < |back| && back[i].0 in home && home[back[i].0] == k
  {
    var j :| 0 <= j < |params| && KeysOf(params)[j] == k;
    var t := there[k];
    assert t in KeysOf(back);
    var i :| 0 <= i < |back| && KeysOf(back)[i] == t;
  }

  lemma SameEntries<K, V>(a: map<K, V>, b: map<K, V>)
    requires forall k :: k in a ==> k in b && a[k] == b[k]
    requires forall k :: k in b ==> k in a
    ensures a == b
  {
  }

  /** Two names of which only the first is in the table: the result is that name's translation alone. */
  lemma TranslatedFirstOnly(table: map<string, string>, ks: seq<string>, params: seq<(string, Value)>, out: map<string, Value>)
    requires TranslatedBy(table, ks, params, out)
    requires |ks| == 2 && ks[0] in table && ks[1] !in table
    ensures out == map[table[ks[0]] := Lookup(params, ks[0])]
  {
    var t := table[ks[0]];
    assert t in out;
    assert LastSentTo(table, ks, t) == 0 by {
      assert ks[..1][..0] == [];
    }
    forall u | u in out ensures u == t {
      var i :| 0 <= i < |ks| && ks[i] in table && table[ks[i]] == u;
    }
    SingleEntry(out, t, Lookup(params, ks[0]));
  }

  /** Two names with the same translation: the result holds that translation with the second name's parameter. */
  lemma TranslatedLastWins(table: map<string, string>, ks: seq<string>, params: seq<(string, Value)>, out: map<string, Value>)
    requires TranslatedBy(table, ks, params, out)
    requires |ks| == 2 && ks[0] in table && ks[1] in table && table[ks[0]] == table[ks[1]]
    ensures out == map[table[ks[1]] := Lookup(params, ks[1])]
  {
    var t := table[ks[1]];
    assert t in out;
    assert LastSentTo(table, ks, t) == 1;
    forall u | u in out ensures u == t {
      var i :| 0 <= i < |ks| && ks[i] in table && table[ks[i]] == u;
    }
    SingleEntry(out, t, Lookup(params, ks[1]));
  }

  lemma SingleEntry<K, V>(m: map<K, V>, k: K, v: V)
    requires k in m && m[k] == v
    requires forall u :: u in m ==> u == k
    ensures m == map[k := v]
  {
  }

  /** A name of the dry-validation vocabulary among those translated selects the dry→mutations table. */
  lemma GuardsByDry(keys: seq<KeyArg>, params: seq<(string, Value)>, k: string)
    requires !EmptyGuard(params) && k in GuardKeys(keys, params) && k in DRY_TO_MUTATIONS
    ensures Guards(keys, params) == Success(Translate(DRY_TO_MUTATIONS, GuardKeys(keys, params), params))
  {
  }

  /** Two entries with distinct names: neither is the empty guard, and they are the names translated. */
  lemma TwoGuards(ps: seq<(string, Value)>)
    requires |ps| == 2 && ps[0].0 != ps[1].0 && ps[0].0 != "empty" && ps[1].0 != "empty"
    ensures !EmptyGuard(ps)
    ensures GuardKeys([], ps) == [ps[0].0, ps[1].0]
    ensures Lookup(ps, ps[0].0) == ps[0].1 && Lookup(ps, ps[1].0) == ps[1].1
  {
    DefaultKeys(ps);
    assert KeysOf(ps) == [ps[0].0, ps[1].0];
    assert LastOf(ps, 0) && LastOf(ps, 1);
  }

  /** Both dry-validation spellings of inclusion translate to `in`; the later one's parameter wins. */
  lemma GuardsLaterWins(a: Value, b: Value)
    ensures Guards([], [("inclusion?", a), ("included_in?", b)]) == Success(map["in" := b])
  {
    var ps := [("inclusion?", a), ("included_in?", b)];
    TwoGuards(ps);
    var ks := GuardKeys([], ps);
    assert ks == ["inclusion?", "included_in?"];
    assert DRY_TO_MUTATIONS["inclusion?"] == "in" && DRY_TO_MUTATIONS["included_in?"] == "in";
    GuardsByDry([], ps, "inclusion?");
    var out := Translate(DRY_TO_MUTATIONS, ks, ps);
    TranslatedLastWins(DRY_TO_MUTATIONS, ks, ps, out);
  }

  /**
   As soon as one name is dry-validation's, the dry→mutations table is used
   even when other names are Mutations', and those are dropped.
   */
  lemma GuardsPrefersDry(a: Value, b: Value)
    ensures Guards([], [("min_size?", a), ("max_length", b)]) == Success(map["min_length" := a])
  {
    var ps := [("min_size?", a), ("max_length", b)];
    TwoGuards(ps);
    var ks := GuardKeys([], ps);
    assert ks == ["min_size?", "max_length"];
    assert DRY_TO_MUTATIONS["min_size?"] == "min_length";
    assert "max_length" !in DRY_TO_MUTATIONS;
    GuardsByDry([], ps, "min_size?");
    var out := Translate(DRY_TO_MUTATIONS, ks, ps);
    TranslatedFirstOnly(DRY_TO_MUTATIONS, ks, ps, out);
  }

  /** Names from neither vocabulary make the call fail rather than return an empty hash. */
  lemma GuardsUnknownFails(v: Value)
    ensures Guards([], [("nils", v)]) == Failure(NoVocabulary)
  {
    var ps := [("nils", v)];
    DefaultKeys(ps);
    assert KeysOf(ps) == ["nils"];
    assert Lookup(ps, "empty") == Nil;
    assert "nils" !in DRY_TO_MUTATIONS && "nils" !in MUTATIONS_TO_DRY;
    assert !EmptyGuard(ps);
    assert Detect(["nils"]) == None;
  }

  // ---------------------------------------------------------------------------
  // Type
  // ---------------------------------------------------------------------------

  /** What `Type` yields: a predicate name, or the constructor that strips and stringifies. */
  datatype TypeHint = Predicate(name: string) | StripString

  /**
   `Utils.Type(type, **params)`: maps a declared type name to a predicate
   name ending in `?`, except that `string` yields the stripping constructor
   unless `strip:` is explicitly falsey.
   */
  function Type(t: Value, params: seq<(string, Value)>): (r: TypeHint)
    ensures r.Predicate? ==> |r.name| > 0 && r.name[|r.name| - 1] == '?'
    ensures r.StripString? <==> ToS(t) == "string" && !Falsey(Lookup(params, "strip"), true)
  {
    var name := ToS(t);
    if name == "string" then
      if Falsey(Lookup(params, "strip"), true) then Predicate("str?") else StripString
    else if name == "integer" then Predicate("int?")
    else if name == "boolean" then Predicate("bool?")
    else Predicate(name + "?")
  }

  /** The names other than `string`: `integer` and `boolean` are abbreviated, any other `t` becomes `t?`. */
  lemma TypeNames(t: Value, params: seq<(string, Value)>)
    ensures ToS(t) == "integer" ==> Type(t, params) == Predicate("int?")
    ensures ToS(t) == "boolean" ==> Type(t, params) == Predicate("bool?")
    ensures ToS(t) !in {"string", "integer", "boolean"} ==> Type(t, params) == Predicate(ToS(t) + "?")
  {
  }

  /** `false` is explicitly falsey; `true` is not. */
  lemma FalseIsFalsey()
    ensures Falsey(Bool(false), true)
  {
    assert Fold("false") == "false" by { FoldPlain("false"); }
    ListedWordsAccepted("false");
  }

  lemma TrueIsNotFalsey()
    ensures !Falsey(Bool(true), true)
  {
    assert Fold("true") == "true" by { FoldPlain("true"); }
    FalseyShape("true");
    assert "true"[..1] == "t" && "true"[|"true"| - 1..] == "e";
    TrueLacksFalseyWords();
  }

  lemma TrueLacksFalseyWords()
    ensures !Occurs("true", "skip") && !Occurs("true", "false") && !Occurs("true", "falsey") && !Occurs("true", "no")
  {
    assert 'k' !in "true" && 'f' !in "true" && 'n' !in "true";
    MissingLetter("true", "skip", 'k');
    MissingLetter("true", "false", 'f');
    MissingLetter("true", "falsey", 'f');
    MissingLetter("true", "no", 'n');
  }

  /** A word containing a letter the text lacks does not occur in it. */
  lemma MissingLetter(t: string, w: string, c: char)
    requires c in w && c !in t
    ensures !Occurs(t, w)
  {
  }

  /**
   For `string`, the plain `str?` predicate needs `strip: false` (or another
   explicitly falsey word); with `strip:` absent or `true` the result is the
   stripping constructor.
   */
  lemma TypeStringStrip(t: Value, params: seq<(string, Value)>)
    requires ToS(t) == "string"
    ensures Lookup(params, "strip") == Nil ==> Type(t, params) == StripString
    ensures Lookup(params, "strip") == Bool(false) ==> Type(t, params) == Predicate("str?")
    ensures Lookup(params, "strip") == Bool(true) ==> Type(t, params) == StripString
  {
    var v := Lookup(params, "strip");
    if v == Nil || v == Bool(false) || v == Bool(true) {
      StripReadingsAgree(v);
    }
  }

  /**
   Only `strip:` matters, and only for `string`: two parameter lists with the
   same `strip:` give the same hint, and any parameters give the same hint
   for the other names.
   */
  lemma TypeReadsOnlyStrip(t: Value, p: seq<(string, Value)>, q: seq<(string, Value)>)
    ensures Lookup(p, "strip") == Lookup(q, "strip") ==> Type(t, p) == Type(t, q)
    ensures ToS(t) != "string" ==> Type(t, p) == Type(t, q)
  {
  }

  /** With the shipped expression, `strip: "on"` reads as explicitly falsey, so `string` gives plain `str?`. */
  lemma TypeStripOn(t: Value)
    requires ToS(t) == "string"
    ensures Type(t, [("strip", Str("on"))]) == Predicate("str?")
  {
    OnIsFalsey();
    var ps := [("strip", Str("on"))];
    LookupPresent(ps, 0);
    assert ToH(ps)["strip"] == Str("on") by {
      assert LastOf(ps, 0);
    }
  }

  /** On the values `strip:` is given in practice, the shipped and the grouped Falsey tests agree. */
  lemma StripReadingsAgree(v: Value)
    requires v == Nil || v == Bool(false) || v == Bool(true)
    ensures Falsey(v, true) <==> FalseyIntended(v, true)
    ensures Falsey(v, true) <==> v == Bool(false)
  {
    FoldLiterals();
    if v == Nil {
      NilIsNeither();
    } else if v == Bool(false) {
      FalseIsFalsey();
    } else {
      TrueIsNotFalsey();
      assert "true" !in FALSEY_WORDS;
    }
  }

  lemma FoldLiterals()
    ensures Fold("") == "" && Fold("false") == "false" && Fold("true") == "true"
  {
    FoldPlain("false");
    FoldPlain("true");
  }
}
